=== FILE: README.md ===
# Proteína Pura storefront rules in Dafny

A model of the local rules of the Proteína Pura e-commerce site (a Next.js
storefront backed by Supabase), written as pure Dafny functions over
immutable datatypes, with the properties those rules promise proved about
them.

What is modelled:

- **The cart** (`useCart`): an ordered list of line items, merged by the
  key (product id, selected flavour id). It supports add, remove,
  set-quantity and clear, plus the price total and the item count. The
  invariant "one line per key, every quantity at least 1" holds after any
  sequence of operations.
- **The cart page**: the shipping rule, the order summary, the free-shipping
  note, the phone-number filter, and the checks `handleCheckoutWhatsapp`
  runs, in their order, before opening the order message.
- **The product listing page**: the four filter criteria, the sort orders,
  the flavour checkbox and the offer/vegan badge.
- **The admin page**: the product list filter and counters, the flavour
  checkbox of the create form, and the body the form posts.
- **The product payload schema** shared by the admin form and the admin
  API (create and partial update).
- **The admin guard** every admin route runs first. It extracts the bearer
  token, asks the auth service about it, and checks the ADMIN_EMAILS allow
  list.
- **The admin products API** (GET, POST, PATCH, DELETE), the upload API and
  the signed-upload API. Each handler is a function of the environment, the
  request and the replies of the services it calls. Its result records the
  service call it made and the response it sent.
- **The request middleware** in front of `/api/admin`, with the paths its matcher selects.
- **The image field** of the admin page (`ImageUploader`): the list of
  current URLs, uploads, URLs added by hand, and removal.

Modules follow the program's structure:

- `Wrappers`: `Option`, `Result`.
- `Seqs`: filter, map, remove-all, toggle.
- `Strings`: JavaScript `trim`, ASCII `toLowerCase`, `includes`, `split`,
  decimal rendering, UTF-16 `length`.
- `Types`: the database records.
- `Cart` and `CartProperties`.
- `Checkout`.
- `Sorting` and `Catalog`.
- `ProductSchema`.
- `Http`: environment, error messages, responses.
- `AdminGuard`.
- `ProductsRoute`.
- `Storage`: bucket resolution, safe names, timestamped paths, public URLs.
- `UploadRoute` and `UploadUrlRoute`.
- `Middleware`.
- `ImageUploader`.
- `AdminPage`.

Modelling conventions:

- Prices are non-negative integers.
- JSON numbers are `real`.
- A JSON field is `Absent`, `Null` or `Present(v)`.
- An environment variable that is not set is the empty string, since both are falsy to the source.
- Timestamps (`Date.now()`) are `nat` parameters.
- Whether a string is a URL is a predicate parameter `isUrl`.
- `getPublicUrl`, which only builds a string, is a function parameter.

## Model

| member | source | states |
|---|---|---|
| Cart.FindIndex | hooks/useCart.ts:28-31 | -1 exactly when no line has the key; otherwise the first line with the key (equal product id and equal flavour id, an absent flavour matching only an absent one) |
| Cart.AddToCart | hooks/useCart.ts:26-47 | a present key: the first matching line's quantity goes up by one, and every other line and the length stay the same; an absent key: `{producto, 1, sabor}` is appended after the existing lines |
| Cart.RemoveFromCart | hooks/useCart.ts:49-56 | no line with the key remains; the result is a subsequence of the cart that keeps every other line with its multiplicity; an absent key leaves the cart unchanged |
| Cart.UpdateQuantity | hooks/useCart.ts:58-72 | a quantity ≤ 0 is exactly removal; a positive n sets every line with the key to exactly n, in place, leaving the others and the length alone |
| Cart.CartTotal | hooks/useCart.ts:78-80 | the sum of snapshot price × quantity; non-negative when quantities are |
| Cart.CartItemsCount | hooks/useCart.ts:82-84 | the sum of quantities, at least the number of lines when every quantity is ≥ 1 |
| Cart.ClearCart | hooks/useCart.ts:74-76 | the empty cart: valid, with total 0 and count 0 |
| CartProperties.AddPreservesValid | hooks/useCart.ts:26-47 | adding keeps "one line per key, every quantity ≥ 1" |
| CartProperties.RemovePreservesValid | hooks/useCart.ts:49-56 | removing keeps the invariant |
| CartProperties.RemoveDropsOneLine | hooks/useCart.ts:49-56 | in a valid cart, removing a present key drops exactly that one line: `cart[..i] + cart[i+1..]` |
| CartProperties.UpdatePreservesValid | hooks/useCart.ts:58-72 | setting a quantity keeps the invariant |
| CartProperties.UpdateAbsentIsNoop | hooks/useCart.ts:58-72 | setting the quantity of an absent key with n > 0 changes nothing |
| CartProperties.UpdatePresentSetsOneLine | hooks/useCart.ts:64-71 | in a valid cart, a positive update rewrites exactly the matching line; the count changes by n − old quantity |
| CartProperties.TotalUpdate | hooks/useCart.ts:78-80 | replacing one line changes the total by the difference of the two line totals |
| CartProperties.CountUpdate | hooks/useCart.ts:82-84 | replacing one line changes the count by the difference of the two quantities |
| CartProperties.AddMergeTotals | hooks/useCart.ts:33-37 | merging into a line raises the count by 1 and the total by that line's snapshot price |
| CartProperties.AddAppendTotals | hooks/useCart.ts:38-45 | appending raises the count by 1 and the total by the new product's price |
| CartProperties.AddRaisesTotals | hooks/useCart.ts:26-47 | every add raises the count by exactly 1 and the total by the price of the line it lands on |
| CartProperties.RunIsValid | hooks/useCart.ts:26-76 | starting from the empty cart, any sequence of add / remove / update / clear leaves a valid cart |
| CartProperties.RepeatedAddMerges | hooks/useCart.ts:26-47 | n ≥ 1 adds of the same key to the empty cart give one line with quantity n, and count n |
| CartProperties.DistinctKeysMakeTwoLines | hooks/useCart.ts:29-30 | two adds with different keys, such as one product with two flavours, give two lines in order |
| Checkout.Shipping | app/carrito/page.tsx:26 | 0 for an empty cart; for a non-empty cart, 0 exactly when the total is strictly above 50000, otherwise 8000 (so exactly 50000 pays 8000) |
| Checkout.Summarize | app/carrito/page.tsx:26-28 | the subtotal is the cart total; total = subtotal + shipping ≥ subtotal |
| Checkout.FreeShippingNoteIff | app/carrito/page.tsx:248 | the free-shipping note shows exactly for a non-empty cart whose total exceeds 50000 |
| Checkout.AddNeverRaisesShipping | app/carrito/page.tsx:26 | adding to a non-empty cart never makes shipping dearer |
| Checkout.SanitizePhoneNumber | app/carrito/page.tsx:52-54 | only decimal digits; a subsequence of the input keeping every digit with its multiplicity; never longer |
| Checkout.SanitizeIdempotent | app/carrito/page.tsx:52-54 | sanitizing twice equals once; an all-digit input is unchanged |
| Checkout.ItemLines | app/carrito/page.tsx:64-67 | one line per cart item, the i-th numbered i+1, in cart order |
| Checkout.ItemLinesSumToSubtotal | app/carrito/page.tsx:64-69 | the line amounts add up to the printed subtotal |
| Checkout.HandleCheckout | app/carrito/page.tsx:75-88 | refused as missing contact data exactly when the name, CI/RUC or address is blank after trim; refused as an empty cart exactly when the contact data is complete and the cart is empty; otherwise the chat opens to the shop's phone digits with a message carrying the contact data as typed, one numbered line per cart item in order, subtotal = cart total, the shipping rule's fee, total = subtotal + shipping, and line amounts adding up to the subtotal |
| Sorting.SortByKey | app/productos/page.tsx:105-118 | the result is ordered by the key and is a permutation of the input |
| Catalog.FilteredProducts | app/productos/page.tsx:95-103 | every listed product matches; the list is a subsequence of the products and keeps every matching one |
| Catalog.NoFiltersListsAll | app/productos/page.tsx:95-103 | with no category, no flavours and both switches off, every product is listed, in order |
| Catalog.FiltersCompose | app/productos/page.tsx:96-102 | the combined filter equals the category, flavour, stock and offer filters applied one after another |
| Catalog.NullSaboresExcluded | app/productos/page.tsx:97-98 | once a flavour is selected, a product with null flavours is never listed |
| Catalog.MoreSaboresListMore | app/productos/page.tsx:97-98 | selecting more flavours never hides a product that a non-empty selection listed |
| Catalog.SortProducts | app/productos/page.tsx:105-118 | a permutation of the list; non-decreasing price, non-increasing price, non-increasing stock, or newest first |
| Catalog.BadgeText | app/productos/page.tsx:128-132 | "Oferta" whenever on offer, taking precedence; otherwise "Vegano" exactly when the category description contains "vegetal" ignoring ASCII case; else nothing |
| Seqs.Toggle | app/productos/page.tsx:120-126 | checking appends the id; unchecking removes every occurrence and keeps the rest in order; the id is present afterwards exactly when checked |
| Seqs.ToggleOnOff | app/productos/page.tsx:120-126 | checking and then unchecking an id that was not selected restores the selection |
| Seqs.RemoveAll | app/productos/page.tsx:124 | the value no longer occurs; every other element keeps its multiplicity and order; a value not present changes nothing |
| Strings.Trim | app/carrito/page.tsx:76 | the result is an infix of the input with only whitespace cut from both ends and none left at either end; empty exactly for a blank input |
| Strings.Contains | app/admin/page.tsx:126 | true exactly when the text occurs at some position |
| Strings.SplitJoin | app/api/admin/productos/route.ts:17 | splitting comma-joined comma-free parts gives the parts back |
| Strings.ParseNatToString | app/api/admin/upload/route.ts:40 | the decimal rendering of a timestamp reads back as the same number |
| AdminPage.ProductosFiltrados | app/admin/page.tsx:125-131 | every listed product matches name, category and switches; a subsequence of the products keeping every matching one |
| AdminPage.InitialFiltersListAll | app/admin/page.tsx:125-131 | with an empty search, category "all" and both switches off, every product is listed |
| AdminPage.SearchIgnoresCase | app/admin/page.tsx:126 | searching for the lowercased text lists the same products |
| AdminPage.TotalActivos | app/admin/page.tsx:133 | at most the number of products; equal to it exactly when all are active, 0 exactly when none is |
| AdminPage.TotalOferta | app/admin/page.tsx:134 | at most the number of products; equal to it exactly when all are on offer, 0 exactly when none is |
| AdminPage.TotalSinStock | app/admin/page.tsx:135 | at most the number of products; 0 exactly when every product has positive stock |
| AdminPage.TotalActivosMatchesSwitch | app/admin/page.tsx:128-133 | the active counter equals the length of the list with only the "active" switch on |
| AdminPage.TotalOfertaMatchesSwitch | app/admin/page.tsx:129-134 | the offer counter equals the length of the list with only the "offer" switch on |
| AdminPage.StockCountsPartition | app/admin/page.tsx:135 | out-of-stock and in-stock products add up to all products |
| AdminPage.ToggleSabor | app/admin/page.tsx:388-391 | checking appends the id to the selection (missing counts as empty); unchecking removes every occurrence |
| AdminPage.ToggleSaborOnOff | app/admin/page.tsx:388-391 | checking then unchecking a flavour that was not selected restores the selection |
| AdminPage.SubmitBody | app/admin/page.tsx:105-110 | the form values, with a missing description sent as null, an absent or empty flavour list sent as null, and the image URL always present |
| AdminPage.FormSubmissionInserted | app/admin/page.tsx:105-110 | values the form accepts are accepted by the create API, and the inserted row carries exactly those values |
| AdminPage.EmptyImageUrlRejectedByForm | app/admin/page.tsx:43 | an image URL left empty or left out makes the form fail exactly when "" is not a URL or another rule fails, and then the image field is among the errors |
| AdminPage.BlankFormRejected | app/admin/page.tsx:34-71 | submitting the form at its initial values fails on the name and the category, and on the image URL too when "" is not a URL |
| ProductSchema.ParseCreate | app/api/admin/productos/route.ts:24-35 | accepted exactly when every create rule holds: a nombre of at least 2 UTF-16 code units (JavaScript's `length`), a non-negative precio, an integer categoria, an integer non-negative cantidad_stock, integer flavour ids, flags that are not null, an image URL (url_imagen left out becomes "" and must then be a URL) and, for the API, gallery entries that are URLs; each broken rule names its field; accepted values equal the input with isActivo defaulting to true, isOferta to false and url_imagen to "" |
| ProductSchema.ParseUpdate | app/api/admin/productos/route.ts:37 | accepted exactly when the id is an integer and every other field is left out or valid under the create rules (null only for descripcion, sabores and galeria_urls); the values are preserved: a field sent keeps its value (numbers as the integers they denote, flavour ids element by element, null as null), and a field left out stays left out, with no defaults applied |
| ProductSchema.NameOkCountsCodeUnits | app/api/admin/productos/route.ts:25 | the name rule counts UTF-16 code units: a single emoji passes, a single letter does not |
| ProductSchema.PriceBoundary | app/api/admin/productos/route.ts:27 | an otherwise valid payload is accepted with price 0 and rejected, for the price alone, with price −1 |
| ProductSchema.CreateImpliesUpdate | app/api/admin/productos/route.ts:37 | every payload the create schema accepts is a valid update once it names an integer id |
| Http.AdminClientError | lib/supabaseAdmin.ts:7-18 | the service-role client can be built exactly when the project URL and the service-role key are set; otherwise the first missing one is named |
| AdminGuard.BearerToken | app/api/admin/productos/route.ts:11-12 | a token exists only for a header of exactly "Bearer " followed by a non-empty token, and then the header is that prefix plus the token |
| AdminGuard.BearerRoundTrip | app/api/admin/productos/route.ts:11-12 | sending "Bearer t" with t non-empty hands the guard exactly t |
| AdminGuard.AllowList | app/api/admin/productos/route.ts:17 | the trimmed, lowercased comma-separated entries of ADMIN_EMAILS with the empty ones dropped: a subsequence of them keeping every non-empty entry as often as it occurs; every entry non-empty, lowercase and comma-free |
| AdminGuard.AllowListRoundTrip | app/api/admin/productos/route.ts:17 | ADMIN_EMAILS written as clean addresses joined by commas yields exactly that list |
| AdminGuard.EmptyAllowList | app/api/admin/productos/route.ts:17-18 | an unset ADMIN_EMAILS gives the empty list |
| AdminGuard.AssertAdmin | app/api/admin/productos/route.ts:7-22 | missing public settings throw; the auth service is asked only when a token was sent, and about that token; the request passes exactly when the token exists, the user is found and the allow list is empty or holds the lowercased email ("" if missing); a found user otherwise gets 403; every other refusal is 401 |
| AdminGuard.EmailCaseIgnored | app/api/admin/productos/route.ts:18 | the decision for an email equals the decision for its lowercase form |
| AdminGuard.NoAllowListAdmitsAnyUser | app/api/admin/productos/route.ts:18 | with ADMIN_EMAILS unset every authenticated user passes |
| AdminGuard.Refused | app/api/admin/productos/route.ts:40-41 | a refused request calls no service and answers the guard's status, or 500 when the guard threw |
| ProductsRoute.InsertRowOf | app/api/admin/productos/route.ts:66-77 | the inserted row carries the accepted values; description, flavours and gallery hold the value sent, and are null when not sent; an empty flavour list is stored as null |
| ProductsRoute.UpdateRowPartial | app/api/admin/productos/route.ts:99-104 | the update writes exactly the fields sent (an empty flavour list as null) and leaves every other column alone |
| ProductsRoute.UpdateRowAsWritten | app/api/admin/productos/route.ts:99-104 | the spread fields pass through unchanged; description and gallery are written with the value sent or null when not sent; flavours are written with a non-empty list sent, else null |
| ProductsRoute.AsWrittenAgreesIffAllSent | app/api/admin/productos/route.ts:99-104 | the update as written equals the partial update exactly when the payload sends description, flavours and gallery |
| ProductsRoute.EditorSaveErasesDescripcion | app/admin/page.tsx:471 | with the source's update, a save from the product editor sets the product's description and flavours to null |
| ProductsRoute.EditorSaveKeepsDescripcion | app/admin/page.tsx:471 | with the partial update, the same save keeps description and flavours |
| ProductsRoute.PartialUpdateKeepsOmitted | app/api/admin/productos/route.ts:94-104 | a nullable column the payload leaves out keeps its value; one it sends gets the value sent |
| ProductsRoute.Get | app/api/admin/productos/route.ts:39-54 | refused requests get the guard's answer; the products are read only past the guard and answered 200 with the rows; a database error answers 500 |
| ProductsRoute.Post | app/api/admin/productos/route.ts:56-86 | nothing is inserted unless the guard passed and the create schema accepted the body; the inserted row is `InsertRowOf` of the accepted values; schema errors answer 400 with the failing fields; success answers 201 with the stored row; every other failure is 400 |
| ProductsRoute.Patch | app/api/admin/productos/route.ts:88-114 | nothing is written unless the guard passed and the update schema accepted the body; the row whose id is the body's id gets the update as written: the spread columns exactly as the body sent them, description and gallery as sent or null, flavours as a non-empty list sent or null; schema errors answer 400 with the failing fields; success answers 200 with the row; failures 400 |
| ProductsRoute.PatchIntended | app/api/admin/productos/route.ts:88-114 | the same flow with the partial update: the row whose id is the body's id gets every column exactly as the body sent it, columns left out are not written, and an empty flavour list is written as null |
| ProductsRoute.AsWrittenFromBody | app/api/admin/productos/route.ts:94-104 | the update as written, read against the body: the spread columns as sent, the three nullable columns as sent or null |
| ProductsRoute.PartialFromBody | app/api/admin/productos/route.ts:94-104 | the partial update, read against the body: every column as sent, the ones left out not written |
| ProductsRoute.PatchDiffersOnlyInRow | app/api/admin/productos/route.ts:88-114 | both flows answer alike and call the database alike, and they agree entirely exactly when the payload sends description, flavours and gallery |
| ProductsRoute.Delete | app/api/admin/productos/route.ts:116-129 | a missing, null or zero id answers 400 "id requerido" without a call; otherwise the row with that id is deleted past the guard, with 200 `{ok: true}` on success and 400 on failure |
| Storage.ResolveBucket | app/api/admin/upload/route.ts:36 | the first non-empty of the requested bucket, SUPABASE_STORAGE_BUCKET, NEXT_PUBLIC_SUPABASE_BUCKET and "products"; never empty |
| Storage.SafeName | app/api/admin/upload/route.ts:39 | one character per UTF-16 code unit of the name, every one in [a-zA-Z0-9._-] |
| Storage.SafeNameBmp | app/api/admin/upload/route.ts:39 | for a name without astral characters: same length, allowed characters kept in place, every other one replaced by "_" |
| Storage.SafeNameKeepsSafe | app/api/admin/upload/route.ts:39 | a name of allowed characters is left as it is |
| Storage.SafeNameAstral | app/api/admin/upload/route.ts:39 | an emoji, being two code units without the `u` flag, becomes "__": "😀.png" gives "__.png" |
| Storage.SafeNameIdempotent | app/api/admin/upload/route.ts:39 | sanitizing twice equals once |
| Storage.TimestampedPath | app/api/admin/upload/route.ts:39-40 | the path reads back as the prefix, a run of digits whose value is the timestamp, "_", and the safe form of the file name |
| Storage.TimestampedPathsDiffer | app/api/admin/upload/route.ts:40 | two timestamped paths with the same prefix are equal only for the same instant and the same safe name |
| Storage.PublicObjectUrl | app/api/admin/upload-url/route.ts:50 | the project URL, then "/storage/v1/object/public/", the bucket, "/" and the object path, each at its place |
| Storage.PublicObjectUrlInjective | app/api/admin/upload-url/route.ts:50 | under one project URL, buckets without "/" give equal public URLs only for equal buckets and paths |
| UploadRoute.UploadPath | app/api/admin/upload/route.ts:29-40 | the supplied path when non-empty, otherwise "uploads/" + timestamp + "_" + safe name; never empty |
| UploadRoute.ContentType | app/api/admin/upload/route.ts:47 | the file's type, or application/octet-stream when it has none |
| UploadRoute.Post | app/api/admin/upload/route.ts:23-57 | a body that is not form data answers 400; a missing file answers 400 "file requerido"; in both cases nothing is uploaded; an upload happens only past the guard, with upsert, to the resolved bucket and path; success answers that bucket, that path and its public URL |
| UploadUrlRoute.Post | app/api/admin/upload-url/route.ts:26-56 | a missing or empty path answers 400 "path requerido" without a call; the signed URL is asked for the resolved bucket and the path; success echoes the signed data, the bucket and the public URL `<url>/storage/v1/object/public/<bucket>/<path>`, always present past the guard |
| Middleware.Decide | middleware.ts:4-17 | a path the matcher `/api/admin/:path*` does not select continues without the middleware; a selected path with a missing or empty Authorization header gets 401; any other header continues |
| Middleware.SelectedStartsWithPrefix | middleware.ts:5-6 | every selected path passes the middleware's own `startsWith('/api/admin')` test |
| Middleware.LookalikePathSkipsMiddleware | middleware.ts:15-17 | "/api/administrators" is not selected, so it continues even without a header |
| Middleware.GuardPassImpliesContinue | middleware.ts:8-12 | every request the admin guard lets through got past the middleware |
| Middleware.RefusalAgreesWithGuard | middleware.ts:8-11 | with the public settings present, a request the middleware refuses also gets 401 from the guard |
| Middleware.MalformedHeaderPassesMiddleware | middleware.ts:8-12 | with the public settings present, a header without a bearer token gets past the middleware and is refused 401 by the guard without the auth service being asked |
| ImageUploader.CurrentValues | components/ImageUploader.tsx:25 | a list maps to itself, a non-empty URL s to [s], and "" to [] |
| ImageUploader.HandleFiles | components/ImageUploader.tsx:49-77 | no change for no files or any failed upload; otherwise the current URLs followed by the new ones in order (multiple), or the first new URL (single) |
| ImageUploader.RemoveImage | components/ImageUploader.tsx:105-114 | single mode clears the value; by index, exactly that position goes (nothing when out of range); by URL, every equal URL goes and the rest keep order and multiplicity |
| ImageUploader.AddUrlManually | components/ImageUploader.tsx:116-133 | a blank or invalid URL changes nothing; a valid one is appended (multiple) or replaces the value (single) |
| ImageUploader.AddThenRemoveLast | components/ImageUploader.tsx:105-125 | adding a URL and removing the last image restores the list |
| ImageUploader.AddThenRemoveByUrl | components/ImageUploader.tsx:105-125 | adding a new URL and removing it by URL restores the list |
| ImageUploader.FilePath | components/ImageUploader.tsx:32 | the path reads back as "productos/", digits whose value is the upload time, "_", and the safe form of the file name |
| ImageUploader.UploadRouteKeepsChosenPath | components/ImageUploader.tsx:32-35 | the upload route stores each file at exactly the path the uploader chose |

## Left out

- localStorage persistence of the cart and of the checkout fields (hooks/useCart.ts:10-24, app/carrito/page.tsx:33-50) is I/O. The cart loader does not check that the stored JSON is an array (hooks/useCart.ts:13).
- `addToCart` mutates the shared line object in place (`updatedCart[i].quantity += 1` on a shallow copy, hooks/useCart.ts:35-36). If React replays the updater, for example in StrictMode, the quantity can rise twice. The model treats the updater as pure.
- All Supabase calls are foreign and are not modelled: `auth.getUser`, select / insert / update / delete, storage `upload`, `createSignedUploadUrl`, `getPublicUrl` and `listBuckets`. Their replies are parameters. The `listBuckets` fallback of the signed-upload route (app/api/admin/upload-url/route.ts:34-42) is not modelled because it is unreachable: `Storage.ResolveBucket` never returns "".
- JSON and multipart parsing are not modelled: a body that is not an object is `None`. Non-number ids in DELETE bodies and non-string `path`/`bucket` values are not modelled.
- ProductSchema.ParseCreate / ProductSchema.ParseUpdate: a payload field holding a JSON value of the wrong type (`"precio": "100"`, `"nombre": 5`, `"isActivo": "true"`, `"sabores": ["1"]`, `"galeria_urls": "x"`) cannot be expressed, because each `Payload` field has a fixed type. zod's type checks (app/api/admin/productos/route.ts:24-37) reject such a body, and POST and PATCH answer 400 naming the field. The iffs with `CreateRulesHold` and `UpdateRulesHold` cover correctly typed bodies only.
- Whether a string is a URL (`z.string().url()`, `new URL`) is the parameter `isUrl`. Zod's string-to-number coercion in the form is not modelled: form inputs arrive as numbers.
- Floating point and locale are not modelled: `Math.round(precio * 1.25)`, `toLocaleString`, `formatCurrency`, the "nombre" sort (`localeCompare`), and `Date` parsing. Creation dates reach the "newest" sort through an `instant` function parameter.
- `toLowerCase` and `trim` are modelled for ASCII letters and the ECMAScript whitespace set. Full Unicode case mapping is not modelled.
- Strings are sequences of Unicode scalar values. Where the source counts or rewrites UTF-16 code units (the name rule's `.min(2)`, the safe-name regex without the `u` flag), the model counts them through `Strings.Utf16Length`. Elsewhere, `trim`, `split(',')` and the phone-digit filter match only BMP characters, and `includes` on well-formed strings finds the same matches on code units as on scalar values, so working on scalar values gives the same results. Lone surrogates, which a JavaScript string may hold and a Dafny string cannot, are not modelled.
- Catalog.SortProducts: stability of `Array.prototype.sort` among equal keys is not stated. Only the order and the permutation are.
- The search debounce, `Promise.all` concurrency of uploads, React state batching and `Date.now()` are left out: timestamps are parameters.
- lib/products.ts (remote queries), app/api/admin/sabores/route.ts (a copy of the guard plus a pass-through read), the presentation pages and components, the WhatsApp URL encoding and `window.open` are not modelled.
- The text rendering of the order message (labels, currency formatting, line joining) is not modelled. The message is a record of its lines and amounts.
- The schemas follow zod 3: a default is substituted for a field left out and then checked (so a missing `url_imagen` becomes "" and must pass `.url()`), `.partial()` makes every field optional with no defaults applied, and null is refused outside `.nullable()` fields. The zod version is not among the modelled sources. Under zod 4, `.partial()` of a schema with defaults would still fill `isActivo`, `isOferta` and `url_imagen` into updates.
- The `Producto` row type (types/database.ts:34-46) has no `galeria_urls` column, although the routes read and write one. The model's stored row follows the type, so the gallery is modelled only in what the routes send.
- A body the upload route cannot read as form data answers 400 with the runtime's error text. The model gives that text one name, `InvalidForm`.
- The guard's thrown error escapes the route handler, and the framework answers 500 with its own error page. This is modelled as a 500 response carrying `EnvsMissing`.

## Findings

| source | as written | input that shows it | evidently intended | confidence | as-written member | corrected member |
|---|---|---|---|---|---|---|
| app/api/admin/productos/route.ts:99-104 | the update spreads the sent fields and then always sets `descripcion: rest.descripcion ?? null`, `sabores: … : null`, `galeria_urls: rest.galeria_urls ?? null`, so columns the payload leaves out are written as null | the product editor's save (app/admin/page.tsx:471) sends only `{id, precio, cantidad_stock, isActivo, isOferta, galeria_urls}`; a product with a description and flavours loses both | a partial update that writes only the fields sent, still storing an empty flavour list as null | high (not executed) | ProductsRoute.EditorSaveErasesDescripcion (on ProductsRoute.UpdateRowAsWritten) | ProductsRoute.UpdateRowPartial (ProductsRoute.EditorSaveKeepsDescripcion, ProductsRoute.PartialUpdateKeepsOmitted), used by ProductsRoute.PatchIntended; ProductsRoute.Patch keeps the route as written |

=== FILE: admin_guard.dfy ===
/**
 * The admin guard every admin API route runs first: it requires the
 * public Supabase settings, a bearer token the auth service accepts, and,
 * when ADMIN_EMAILS lists anyone, an email on that list (compared without
 * regard to ASCII case).
 *
 * The call to the auth service is not made here: its reply for the token
 * is handed in, and the result records whether the guard asked at all.
 */
module AdminGuard {
  import opened Wrappers
  import Seqs
  import Strings
  import opened Http

  /** The auth service's reply to `getUser(token)`. */
  datatype UserLookup = LookupFailed | NoUser | Found(email: Option<string>)

  /** Pass: the handler goes on. Reject: the guard answers. Crash: the guard throws. */
  datatype Decision = Pass | Reject(status: int, error: ErrorMessage) | Crash(error: ErrorMessage)

  /** The decision, and the token the auth service was asked about (if it was asked). */
  datatype GuardResult = GuardResult(lookedUp: Option<string>, decision: Decision)

  const BearerPrefix: string := "Bearer "

  /** The token of an `Authorization` header; an empty token counts as none. */
  function BearerToken(header: Option<string>): (r: Option<string>)
    ensures r.Some? ==> r.value != "" && header == Some(BearerPrefix + r.value)
  {
    var h := header.GetOr("");
    if Strings.StartsWith(h, BearerPrefix) && |h| > |BearerPrefix| then
      assert h == BearerPrefix + h[|BearerPrefix|..];
      Some(h[|BearerPrefix|..])
    else None
  }

  /** Sending `Bearer <t>` hands the guard exactly `t`. */
  lemma BearerRoundTrip(token: string)
    requires token != ""
    ensures BearerToken(Some(BearerPrefix + token)) == Some(token)
  {
    var h := BearerPrefix + token;
    assert h[..|BearerPrefix|] == BearerPrefix;
    assert h[|BearerPrefix|..] == token;
  }

  function NormalizeEmail(s: string): string {
    Strings.ToLower(Strings.Trim(s))
  }

  predicate NonEmpty(s: string) {
    s != ""
  }

  /** Normalized entries are lowercase, and a comma-free entry stays comma-free. */
  lemma NormalizedEntriesClean(parts: seq<string>)
    requires forall i :: 0 <= i < |parts| ==> ',' !in parts[i]
    ensures var n := Seqs.Map(NormalizeEmail, parts);
            forall i :: 0 <= i < |n| ==> Strings.IsLower(n[i]) && ',' !in n[i]
  {
    var n := Seqs.Map(NormalizeEmail, parts);
    forall i | 0 <= i < |n|
      ensures Strings.IsLower(n[i]) && ',' !in n[i]
    {
      Strings.TrimKeepsOut(parts[i], ',');
      Strings.ToLowerKeepsOut(Strings.Trim(parts[i]), ',');
    }
  }

  /**
   * The normalized comma-free parts with the empty ones dropped: clean
   * entries, in order, each non-empty one as often as it occurs.
   */
  lemma NonEmptyNormalized(parts: seq<string>)
    requires forall i :: 0 <= i < |parts| ==> ',' !in parts[i]
    ensures var n := Seqs.Map(NormalizeEmail, parts);
            var r := Seqs.Filter(NonEmpty, n);
            && (forall i :: 0 <= i < |r| ==> r[i] != "" && Strings.IsLower(r[i]) && ',' !in r[i])
            && Seqs.IsSubseq(r, n)
            && forall i :: 0 <= i < |n| && n[i] != "" ==> multiset(r)[n[i]] == multiset(n)[n[i]]
  {
    var n := Seqs.Map(NormalizeEmail, parts);
    NormalizedEntriesClean(parts);
    Seqs.FilterKeepsProperty(NonEmpty, (s: string) => Strings.IsLower(s) && ',' !in s, n);
    Seqs.FilterIsSubseq(NonEmpty, n);
    forall i | 0 <= i < |n| && n[i] != ""
      ensures multiset(Seqs.Filter(NonEmpty, n))[n[i]] == multiset(n)[n[i]]
    {
      Seqs.FilterKeepsCount(NonEmpty, n, n[i]);
    }
  }

  /** ADMIN_EMAILS split on commas, each entry trimmed and lowercased, empty entries dropped. */
  function AllowList(adminEmails: string): (r: seq<string>)
    ensures forall i :: 0 <= i < |r| ==> r[i] != "" && Strings.IsLower(r[i]) && ',' !in r[i]
    // every non-empty normalized entry is kept, as often as it occurs, in order
    ensures var n := Seqs.Map(NormalizeEmail, Strings.Split(adminEmails, ','));
            && Seqs.IsSubseq(r, n)
            && forall i :: 0 <= i < |n| && n[i] != "" ==> multiset(r)[n[i]] == multiset(n)[n[i]]
  {
    NonEmptyNormalized(Strings.Split(adminEmails, ','));
    Seqs.Filter(NonEmpty, Seqs.Map(NormalizeEmail, Strings.Split(adminEmails, ',')))
  }

  /** An address as it may be written in ADMIN_EMAILS and come back unchanged. */
  predicate CleanEmail(e: string) {
    && e != ""
    && Strings.IsLower(e)
    && ',' !in e
    && !Strings.IsWhitespace(e[0])
    && !Strings.IsWhitespace(e[|e| - 1])
  }

  /** Writing a list of clean addresses joined by commas yields exactly that list. */
  lemma AllowListRoundTrip(emails: seq<string>)
    requires |emails| >= 1
    requires forall i :: 0 <= i < |emails| ==> CleanEmail(emails[i])
    ensures AllowList(Strings.Join(emails, ',')) == emails
  {
    Strings.SplitJoin(emails, ',');
    var normalized := Seqs.Map(NormalizeEmail, emails);
    forall i | 0 <= i < |emails|
      ensures normalized[i] == emails[i]
    {
      NormalizeClean(emails[i]);
    }
    assert normalized == emails;
    Seqs.FilterKeepsAll(NonEmpty, emails);
  }

  /** A clean address is its own normal form. */
  lemma NormalizeClean(e: string)
    requires CleanEmail(e)
    ensures NormalizeEmail(e) == e
  {
    Strings.TrimClean(e);
  }

  /** An unset (or empty) ADMIN_EMAILS allows no one in particular, hence everyone. */
  lemma EmptyAllowList()
    ensures AllowList("") == []
  {
    assert Strings.Split("", ',') == [""];
  }

  predicate AllowedEmail(adminEmails: string, email: Option<string>) {
    var allowed := AllowList(adminEmails);
    |allowed| == 0 || Strings.ToLower(email.GetOr("")) in allowed
  }

  /** `assertAdmin`, given the auth service's reply for whatever token it would ask about. */
  function AssertAdmin(env: Env, authorization: Option<string>, lookup: UserLookup): (g: GuardResult)
    // the outcomes and their statuses
    ensures g.decision.Crash? <==> env.supabaseUrl == "" || env.anonKey == ""
    ensures g.decision.Crash? ==> g.decision.error == EnvsMissing
    ensures g.decision.Reject? ==> g.decision in {Reject(401, Unauthorized), Reject(403, Forbidden)}
    // the auth service is asked exactly when the settings exist and a token was sent, and about that token
    ensures g.lookedUp.Some? <==> !g.decision.Crash? && BearerToken(authorization).Some?
    ensures g.lookedUp.Some? ==> g.lookedUp == BearerToken(authorization)
    // who gets through
    ensures g.decision.Pass? <==>
              && env.supabaseUrl != "" && env.anonKey != ""
              && BearerToken(authorization).Some?
              && lookup.Found?
              && AllowedEmail(env.adminEmails, lookup.email)
    ensures g.decision == Reject(403, Forbidden) <==>
              && env.supabaseUrl != "" && env.anonKey != ""
              && BearerToken(authorization).Some?
              && lookup.Found?
              && !AllowedEmail(env.adminEmails, lookup.email)
  {
    if env.supabaseUrl == "" || env.anonKey == "" then GuardResult(None, Crash(EnvsMissing))
    else
      match BearerToken(authorization)
      case None => GuardResult(None, Reject(401, Unauthorized))
      case Some(token) =>
        match lookup
        case Found(email) =>
          if AllowedEmail(env.adminEmails, email) then GuardResult(Some(token), Pass)
          else GuardResult(Some(token), Reject(403, Forbidden))
        case _ => GuardResult(Some(token), Reject(401, Unauthorized))
  }

  /** The allow-list comparison ignores the ASCII case of the user's address. */
  lemma EmailCaseIgnored(env: Env, authorization: Option<string>, email: string)
    ensures AssertAdmin(env, authorization, Found(Some(email))).decision
         == AssertAdmin(env, authorization, Found(Some(Strings.ToLower(email)))).decision
  {
    var lower := Strings.ToLower(email);
    assert Strings.ToLower(lower) == lower;
  }

  /** With ADMIN_EMAILS unset, every user the auth service knows passes. */
  lemma NoAllowListAdmitsAnyUser(env: Env, authorization: Option<string>, email: Option<string>)
    requires env.supabaseUrl != "" && env.anonKey != "" && env.adminEmails == ""
    requires BearerToken(authorization).Some?
    ensures AssertAdmin(env, authorization, Found(email)).decision.Pass?
  {
    EmptyAllowList();
  }

  /** The response of a route whose guard did not let the request through; no service is called. */
  function Refused<C, T>(d: Decision): (h: Handled<C, T>)
    requires !d.Pass?
    ensures h.call == None
    ensures d.Reject? ==> h.response == Response(d.status, Error(d.error))
    ensures d.Crash? ==> h.response == Response(500, Error(d.error))
  {
    match d
    case Reject(status, e) => Handled(None, Response(status, Error(e)))
    case Crash(e) => Handled(None, Response(500, Error(e)))
  }
}

=== FILE: admin_page.dfy ===
/**
 * The admin page's product list and create form: the list filtered by
 * name (ignoring ASCII case), category and the active / on-offer
 * switches; the counters above it; the flavour checkboxes of the form;
 * and the body the form sends to the create API.
 */
module AdminPage {
  import opened Wrappers
  import opened Types
  import Seqs
  import Strings
  import ProductSchema
  import ProductsRoute

  /** The list's filter controls; `categoria` is `None` for "all". */
  datatype AdminFilters = AdminFilters(search: string, categoria: Option<int>, soloActivos: bool, soloOferta: bool)

  /** The controls' initial state. */
  const AllProducts := AdminFilters("", None, false, false)

  predicate MatchesText(p: Producto, search: string) {
    Strings.Contains(Strings.ToLower(p.nombre), Strings.ToLower(search))
  }

  predicate AdminMatches(p: Producto, f: AdminFilters) {
    && MatchesText(p, f.search)
    && (f.categoria.None? || p.categoria == f.categoria.value)
    && (!f.soloActivos || p.isActivo)
    && (!f.soloOferta || p.isOferta)
  }

  function AdminKeep(f: AdminFilters): Producto -> bool {
    p => AdminMatches(p, f)
  }

  /** The products the list shows, in their original order. */
  function ProductosFiltrados(ps: seq<Producto>, f: AdminFilters): (r: seq<Producto>)
    ensures forall i :: 0 <= i < |r| ==> AdminMatches(r[i], f)
    ensures Seqs.IsSubseq(r, ps)
    ensures forall i :: 0 <= i < |ps| && AdminMatches(ps[i], f) ==> multiset(r)[ps[i]] == multiset(ps)[ps[i]]
  {
    var r := Seqs.Filter(AdminKeep(f), ps);
    Seqs.FilterIsSubseq(AdminKeep(f), ps);
    forall i | 0 <= i < |ps| && AdminMatches(ps[i], f)
      ensures multiset(r)[ps[i]] == multiset(ps)[ps[i]]
    {
      Seqs.FilterKeepsCount(AdminKeep(f), ps, ps[i]);
    }
    r
  }

  /** Every name contains the empty search text. */
  lemma EmptySearchMatches(p: Producto)
    ensures MatchesText(p, "")
  {
    assert Strings.ToLower("") == "";
    assert Strings.OccursAt(Strings.ToLower(p.nombre), "", 0);
  }

  /** With the controls in their initial state the list shows every product. */
  lemma InitialFiltersListAll(ps: seq<Producto>)
    ensures ProductosFiltrados(ps, AllProducts) == ps
  {
    forall i | 0 <= i < |ps|
      ensures AdminKeep(AllProducts)(ps[i])
    {
      EmptySearchMatches(ps[i]);
    }
    Seqs.FilterKeepsAll(AdminKeep(AllProducts), ps);
  }

  /** The search ignores ASCII case: searching for the lowercased text shows the same list. */
  lemma SearchIgnoresCase(ps: seq<Producto>, f: AdminFilters)
    ensures ProductosFiltrados(ps, f) == ProductosFiltrados(ps, f.(search := Strings.ToLower(f.search)))
  {
    var lower := Strings.ToLower(f.search);
    assert Strings.ToLower(lower) == lower;
    Seqs.FilterExt(AdminKeep(f), AdminKeep(f.(search := lower)), ps);
  }

  /** How many products satisfy `f`. */
  function CountWhere(ps: seq<Producto>, f: Producto -> bool): (n: nat)
    ensures n <= |ps|
    ensures n == |ps| <==> forall i :: 0 <= i < |ps| ==> f(ps[i])
    ensures n == 0 <==> forall i :: 0 <= i < |ps| ==> !f(ps[i])
  {
    Seqs.FilterLength(f, ps);
    |Seqs.Filter(f, ps)|
  }

  function IsActivo(p: Producto): bool { p.isActivo }
  function IsOferta(p: Producto): bool { p.isOferta }
  function SinStock(p: Producto): bool { p.cantidadStock <= 0 }
  function ConStock(p: Producto): bool { p.cantidadStock > 0 }

  /** The "activos" counter: over all products, whatever the controls say. */
  function TotalActivos(ps: seq<Producto>): (n: nat)
    ensures n <= |ps|
    ensures n == |ps| <==> forall i :: 0 <= i < |ps| ==> ps[i].isActivo
    ensures n == 0 <==> forall i :: 0 <= i < |ps| ==> !ps[i].isActivo
  {
    CountWhere(ps, IsActivo)
  }

  function TotalOferta(ps: seq<Producto>): (n: nat)
    ensures n <= |ps|
    ensures n == |ps| <==> forall i :: 0 <= i < |ps| ==> ps[i].isOferta
    ensures n == 0 <==> forall i :: 0 <= i < |ps| ==> !ps[i].isOferta
  {
    CountWhere(ps, IsOferta)
  }

  /** The "sin stock" counter: products with zero or negative stock. */
  function TotalSinStock(ps: seq<Producto>): (n: nat)
    ensures n <= |ps|
    ensures n == 0 <==> forall i :: 0 <= i < |ps| ==> ps[i].cantidadStock > 0
  {
    CountWhere(ps, SinStock)
  }

  /** The "activos" counter equals the length of the list with only the active switch on. */
  lemma TotalActivosMatchesSwitch(ps: seq<Producto>)
    ensures TotalActivos(ps) == |ProductosFiltrados(ps, AllProducts.(soloActivos := true))|
  {
    var f := AllProducts.(soloActivos := true);
    forall i | 0 <= i < |ps|
      ensures IsActivo(ps[i]) == AdminKeep(f)(ps[i])
    {
      EmptySearchMatches(ps[i]);
    }
    Seqs.FilterExt(IsActivo, AdminKeep(f), ps);
  }

  /** The "oferta" counter equals the length of the list with only the offer switch on. */
  lemma TotalOfertaMatchesSwitch(ps: seq<Producto>)
    ensures TotalOferta(ps) == |ProductosFiltrados(ps, AllProducts.(soloOferta := true))|
  {
    var f := AllProducts.(soloOferta := true);
    forall i | 0 <= i < |ps|
      ensures IsOferta(ps[i]) == AdminKeep(f)(ps[i])
    {
      EmptySearchMatches(ps[i]);
    }
    Seqs.FilterExt(IsOferta, AdminKeep(f), ps);
  }

  /** Every product is counted as out of stock or in stock, never both. */
  lemma {:induction false} StockCountsPartition(ps: seq<Producto>)
    ensures TotalSinStock(ps) + CountWhere(ps, ConStock) == |ps|
    decreases |ps|
  {
    if |ps| > 0 {
      StockCountsPartition(ps[1..]);
    }
  }

  /**
   * A flavour checkbox of the form: checking appends the id to the
   * selection (a missing selection counts as empty), unchecking removes it.
   */
  function ToggleSabor(current: Option<seq<int>>, id: int, checked: bool): (r: seq<int>)
    ensures checked ==> r == current.GetOr([]) + [id]
    ensures !checked ==> id !in r && Seqs.IsSubseq(r, current.GetOr([]))
    ensures (id in r) == checked
    ensures current.None? && !checked ==> r == []
  {
    Seqs.Toggle(current.GetOr([]), id, checked)
  }

  /** Ticking and unticking a flavour that was not selected leaves the selection as it was. */
  lemma ToggleSaborOnOff(current: seq<int>, id: int)
    requires id !in current
    ensures ToggleSabor(Some(ToggleSabor(Some(current), id, true)), id, false) == current
  {
    Seqs.ToggleOnOff(current, id);
  }

  /**
   * The JSON body the form posts: the form's values with a missing
   * description sent as null, an empty flavour list sent as null, and the
   * image URL always present.
   */
  function SubmitBody(v: ProductSchema.CreateValues): (b: ProductSchema.Payload)
    ensures b.id.Absent? && b.galeriaUrls.Absent?
    ensures b.nombre == Present(v.nombre) && b.precio == Present(v.precio)
    ensures b.categoria == Present(v.categoria as real) && b.cantidadStock == Present(v.cantidadStock as real)
    ensures b.isActivo == Present(v.isActivo) && b.isOferta == Present(v.isOferta)
    ensures b.urlImagen == Present(v.urlImagen)
    ensures b.descripcion == (if v.descripcion.Present? then v.descripcion else Null)
    ensures b.sabores.Present? <==> v.sabores.Present? && |v.sabores.value| > 0
    ensures b.sabores.Present? ==>
              |b.sabores.value| == |v.sabores.value|
              && forall i :: 0 <= i < |v.sabores.value| ==> b.sabores.value[i] == v.sabores.value[i] as real
  {
    ProductSchema.Payload(
      Absent,
      Present(v.nombre),
      if v.descripcion.Present? then v.descripcion else Null,
      Present(v.precio),
      Present(v.categoria as real),
      Present(v.isActivo),
      Present(v.isOferta),
      Present(v.cantidadStock as real),
      if v.sabores.Present? && |v.sabores.value| > 0 then Present(Seqs.Map((x: int) => x as real, v.sabores.value)) else Null,
      Present(v.urlImagen),
      Absent)
  }

  /**
   * A form the admin page accepts is accepted by the create API too, and
   * the row inserted carries exactly the form's values.
   */
  lemma FormSubmissionInserted(raw: ProductSchema.Payload, isUrl: string -> bool)
    requires ProductSchema.ParseCreate(raw, true, isUrl).Success?
    ensures var v := ProductSchema.ParseCreate(raw, true, isUrl).value;
            var sent := ProductSchema.ParseCreate(SubmitBody(v), false, isUrl);
            sent.Success? && ProductsRoute.InsertRowOf(sent.value) == ProductsRoute.InsertRowOf(v)
  {
    var v := ProductSchema.ParseCreate(raw, true, isUrl).value;
    var b := SubmitBody(v);
    assert ProductSchema.Issues(b, ProductSchema.CreateSchema, isUrl) == [];
    var w := ProductSchema.ParseCreate(b, false, isUrl).value;
    if v.sabores.Present? && |v.sabores.value| > 0 {
      assert w.sabores.value == v.sabores.value;
    }
  }

  /**
   * The form's values before anything is typed: an empty name and
   * description, price and stock 0, no category, active, not on offer, no
   * flavours and an empty image URL.
   */
  const BlankForm := ProductSchema.Payload(
    Absent, Present(""), Present(""), Present(0.0), Absent, Present(true), Present(false),
    Present(0.0), Present([]), Present(""), Absent)

  /**
   * An image URL left empty, or left out, is refused by the form itself
   * whenever the empty string is not a URL, so nothing reaches the API.
   */
  lemma EmptyImageUrlRejectedByForm(raw: ProductSchema.Payload, isUrl: string -> bool)
    requires raw.urlImagen == Present("") || raw.urlImagen.Absent?
    ensures ProductSchema.ParseCreate(raw, true, isUrl).Failure? <==>
            !isUrl("") || !ProductSchema.CreateRulesHold(raw, true, isUrl)
    ensures !isUrl("") ==> ProductSchema.UrlImagen in ProductSchema.ParseCreate(raw, true, isUrl).error
  {
  }

  /**
   * Submitting the blank form names the name, the category and, when the
   * empty string is not a URL, the image URL as the fields to fix.
   */
  lemma BlankFormRejected(isUrl: string -> bool)
    ensures ProductSchema.ParseCreate(BlankForm, true, isUrl)
            == Failure(if isUrl("") then [ProductSchema.Nombre, ProductSchema.Column.Categoria]
                       else [ProductSchema.Nombre, ProductSchema.Column.Categoria, ProductSchema.UrlImagen])
  {
    assert ProductSchema.AllInts([]);
    assert ProductSchema.IsInt(0.0);
    var issues := ProductSchema.Issues(BlankForm, ProductSchema.FormSchema, isUrl);
    assert issues == [ProductSchema.Nombre, ProductSchema.Column.Categoria]
                     + ProductSchema.Check(isUrl(""), ProductSchema.UrlImagen);
    assert ProductSchema.ParseCreate(BlankForm, true, isUrl) == Failure(issues);
    if isUrl("") {
      assert issues == [ProductSchema.Nombre, ProductSchema.Column.Categoria];
    } else {
      assert issues == [ProductSchema.Nombre, ProductSchema.Column.Categoria, ProductSchema.UrlImagen];
    }
  }
}

=== FILE: cart.dfy ===
/**
 * The cart store (`useCart`): an ordered list of line items, merged by the
 * key (product id, selected flavour id), with add / remove / set-quantity /
 * clear and the two aggregates. Every operation is a pure function from the
 * previous list to the next one, as the React state updaters are.
 */
module Cart {
  import opened Wrappers
  import opened Types
  import Seqs

  /** The merge key of a line item: product id and `sabor?.id` (absent matches only absent). */
  datatype CartKey = CartKey(productId: int, saborId: Option<int>)

  function SaborId(sabor: Option<Sabor>): Option<int> {
    match sabor
    case Some(s) => Some(s.id)
    case None => None
  }

  function KeyOf(item: CartItem): CartKey {
    CartKey(item.producto.row.id, SaborId(item.saborSeleccionado))
  }

  /** The key under which `addToCart(producto, sabor)` files its line. */
  function AddKey(producto: ProductoConDetalles, sabor: Option<Sabor>): CartKey {
    CartKey(producto.row.id, SaborId(sabor))
  }

  predicate HasKey(cart: seq<CartItem>, key: CartKey) {
    exists i :: 0 <= i < |cart| && KeyOf(cart[i]) == key
  }

  /** Position `i` holds the first line item filed under `key`. */
  predicate IsFirstMatch(cart: seq<CartItem>, key: CartKey, i: int) {
    && 0 <= i < |cart|
    && KeyOf(cart[i]) == key
    && forall j :: 0 <= j < i ==> KeyOf(cart[j]) != key
  }

  /** The cart invariant: at most one line per key, every quantity at least 1. */
  ghost predicate Valid(cart: seq<CartItem>) {
    && (forall i :: 0 <= i < |cart| ==> cart[i].quantity >= 1)
    && (forall i, j :: 0 <= i < j < |cart| ==> KeyOf(cart[i]) != KeyOf(cart[j]))
  }

  /** `Array.prototype.findIndex` on the key: the first matching position, or -1. */
  function FindIndex(cart: seq<CartItem>, key: CartKey): (r: int)
    ensures -1 <= r < |cart|
    ensures r == -1 <==> !HasKey(cart, key)
    ensures r >= 0 ==> IsFirstMatch(cart, key, r)
    decreases |cart|
  {
    if |cart| == 0 then -1
    else if KeyOf(cart[0]) == key then 0
    else
      var r := FindIndex(cart[1..], key);
      assert forall j :: 1 <= j < |cart| ==> cart[j] == cart[1..][j - 1];
      assert HasKey(cart[1..], key) ==> HasKey(cart, key) by {
        if HasKey(cart[1..], key) {
          var j :| 0 <= j < |cart| - 1 && KeyOf(cart[1..][j]) == key;
          assert KeyOf(cart[j + 1]) == key;
        }
      }
      if r == -1 then -1 else r + 1
  }

  /**
   * `addToCart`: a present key gets its first line's quantity raised by one
   * (that line keeps its own product snapshot); an absent key gets a new
   * line with quantity 1 at the end.
   */
  function AddToCart(cart: seq<CartItem>, producto: ProductoConDetalles, sabor: Option<Sabor>): (r: seq<CartItem>)
    ensures forall i :: IsFirstMatch(cart, AddKey(producto, sabor), i) ==>
      r == cart[i := cart[i].(quantity := cart[i].quantity + 1)]
    ensures !HasKey(cart, AddKey(producto, sabor)) ==> r == cart + [CartItem(producto, 1, sabor)]
  {
    var i := FindIndex(cart, AddKey(producto, sabor));
    if i > -1 then cart[i := cart[i].(quantity := cart[i].quantity + 1)]
    else cart + [CartItem(producto, 1, sabor)]
  }

  /** `removeFromCart`: every line filed under the key is dropped, the rest keep their order. */
  function RemoveFromCart(cart: seq<CartItem>, productId: int, saborId: Option<int>): (r: seq<CartItem>)
    ensures forall i :: 0 <= i < |r| ==> KeyOf(r[i]) != CartKey(productId, saborId)
    ensures Seqs.IsSubseq(r, cart)
    ensures forall i :: 0 <= i < |cart| && KeyOf(cart[i]) != CartKey(productId, saborId) ==>
      multiset(r)[cart[i]] == multiset(cart)[cart[i]]
    ensures !HasKey(cart, CartKey(productId, saborId)) ==> r == cart
  {
    var key := CartKey(productId, saborId);
    var keep := (item: CartItem) => KeyOf(item) != key;
    var r := Seqs.Filter(keep, cart);
    Seqs.FilterIsSubseq(keep, cart);
    assert forall i :: 0 <= i < |cart| && keep(cart[i]) ==> multiset(r)[cart[i]] == multiset(cart)[cart[i]] by {
      forall i | 0 <= i < |cart| && keep(cart[i]) {
        Seqs.FilterKeepsCount(keep, cart, cart[i]);
      }
    }
    if HasKey(cart, key) then r
    else
      Seqs.FilterKeepsAll(keep, cart);
      r
  }

  /**
   * `updateQuantity`: a non-positive quantity removes the key; a positive one
   * sets every line under the key to exactly that quantity, in place.
   */
  function UpdateQuantity(cart: seq<CartItem>, productId: int, saborId: Option<int>, newQuantity: int): (r: seq<CartItem>)
    ensures newQuantity <= 0 ==> r == RemoveFromCart(cart, productId, saborId)
    ensures newQuantity > 0 ==> |r| == |cart|
    ensures newQuantity > 0 ==> forall i :: 0 <= i < |cart| ==>
      r[i] == (if KeyOf(cart[i]) == CartKey(productId, saborId) then cart[i].(quantity := newQuantity) else cart[i])
  {
    if newQuantity <= 0 then RemoveFromCart(cart, productId, saborId)
    else
      Seqs.Map((item: CartItem) =>
        if KeyOf(item) == CartKey(productId, saborId) then item.(quantity := newQuantity) else item, cart)
  }

  function LineTotal(item: CartItem): int {
    item.producto.row.precio * item.quantity
  }

  /** `getCartTotal`: snapshot price times quantity, summed over the lines. */
  function CartTotal(cart: seq<CartItem>): (r: int)
    ensures (forall i :: 0 <= i < |cart| ==> cart[i].quantity >= 0) ==> r >= 0
    decreases |cart|
  {
    if |cart| == 0 then 0
    else
      var r := CartTotal(cart[..|cart| - 1]);
      assert forall i :: 0 <= i < |cart| - 1 ==> cart[..|cart| - 1][i] == cart[i];
      r + LineTotal(cart[|cart| - 1])
  }

  /** `getCartItemsCount`: the sum of the quantities, not the number of lines. */
  function CartItemsCount(cart: seq<CartItem>): (r: int)
    ensures (forall i :: 0 <= i < |cart| ==> cart[i].quantity >= 1) ==> r >= |cart|
    decreases |cart|
  {
    if |cart| == 0 then 0
    else
      var r := CartItemsCount(cart[..|cart| - 1]);
      assert forall i :: 0 <= i < |cart| - 1 ==> cart[..|cart| - 1][i] == cart[i];
      r + cart[|cart| - 1].quantity
  }

  /** `clearCart`: the empty cart, which trivially satisfies the invariant and sums to zero. */
  function ClearCart(cart: seq<CartItem>): (r: seq<CartItem>)
    ensures |r| == 0 && Valid(r)
    ensures CartTotal(r) == 0 && CartItemsCount(r) == 0
  {
    []
  }
}

=== FILE: cart_properties.dfy ===
/**
 * Properties of the cart store: the invariant is kept by every operation,
 * the aggregates move as the operations promise, and the merge rule
 * accumulates repeated additions on one line.
 */
module CartProperties {
  import opened Wrappers
  import opened Types
  import opened Cart

  lemma AddPreservesValid(cart: seq<CartItem>, producto: ProductoConDetalles, sabor: Option<Sabor>)
    requires Valid(cart)
    ensures Valid(AddToCart(cart, producto, sabor))
  {
    var key := AddKey(producto, sabor);
    var r := AddToCart(cart, producto, sabor);
    if HasKey(cart, key) {
      var i := FindIndex(cart, key);
      assert forall j :: 0 <= j < |r| ==> KeyOf(r[j]) == KeyOf(cart[j]);
    } else {
      assert r == cart + [CartItem(producto, 1, sabor)];
      assert forall j :: 0 <= j < |cart| ==> KeyOf(r[j]) != key;
    }
  }

  /** Deleting one position keeps the invariant. */
  lemma ValidDeleteAt(cart: seq<CartItem>, i: int)
    requires Valid(cart) && 0 <= i < |cart|
    ensures Valid(cart[..i] + cart[i + 1..])
  {
    var r := cart[..i] + cart[i + 1..];
    assert forall a :: 0 <= a < |r| ==> r[a] == cart[if a < i then a else a + 1];
  }

  lemma RemovePreservesValid(cart: seq<CartItem>, productId: int, saborId: Option<int>)
    requires Valid(cart)
    ensures Valid(RemoveFromCart(cart, productId, saborId))
  {
    var key := CartKey(productId, saborId);
    if HasKey(cart, key) {
      var i := FindIndex(cart, key);
      RemoveDropsOneLine(cart, productId, saborId, i);
      ValidDeleteAt(cart, i);
    }
  }

  /** In a valid cart a present key names one line, and removing it deletes exactly that line. */
  lemma RemoveDropsOneLine(cart: seq<CartItem>, productId: int, saborId: Option<int>, i: int)
    requires Valid(cart)
    requires IsFirstMatch(cart, CartKey(productId, saborId), i)
    ensures RemoveFromCart(cart, productId, saborId) == cart[..i] + cart[i + 1..]
    ensures |RemoveFromCart(cart, productId, saborId)| == |cart| - 1
  {
    var key := CartKey(productId, saborId);
    Seqs.FilterDropsOne((item: CartItem) => KeyOf(item) != key, cart, i);
  }

  lemma UpdatePreservesValid(cart: seq<CartItem>, productId: int, saborId: Option<int>, newQuantity: int)
    requires Valid(cart)
    ensures Valid(UpdateQuantity(cart, productId, saborId, newQuantity))
  {
    if newQuantity <= 0 {
      RemovePreservesValid(cart, productId, saborId);
    } else {
      var r := UpdateQuantity(cart, productId, saborId, newQuantity);
      assert forall j :: 0 <= j < |r| ==> KeyOf(r[j]) == KeyOf(cart[j]);
    }
  }

  /** Setting the quantity of a key that is not in the cart changes nothing. */
  lemma UpdateAbsentIsNoop(cart: seq<CartItem>, productId: int, saborId: Option<int>, newQuantity: int)
    requires !HasKey(cart, CartKey(productId, saborId))
    ensures UpdateQuantity(cart, productId, saborId, newQuantity) == cart
  {
    if newQuantity > 0 {
      var r := UpdateQuantity(cart, productId, saborId, newQuantity);
      assert forall j :: 0 <= j < |cart| ==> KeyOf(cart[j]) != CartKey(productId, saborId);
      assert forall j :: 0 <= j < |cart| ==> r[j] == cart[j];
    }
  }

  /** Setting the quantity of the one line under a key changes that line alone. */
  lemma UpdatePresentSetsOneLine(cart: seq<CartItem>, productId: int, saborId: Option<int>, newQuantity: int, i: int)
    requires Valid(cart) && newQuantity > 0
    requires IsFirstMatch(cart, CartKey(productId, saborId), i)
    ensures UpdateQuantity(cart, productId, saborId, newQuantity) == cart[i := cart[i].(quantity := newQuantity)]
    ensures CartItemsCount(UpdateQuantity(cart, productId, saborId, newQuantity))
      == CartItemsCount(cart) - cart[i].quantity + newQuantity
  {
    var r := UpdateQuantity(cart, productId, saborId, newQuantity);
    assert forall j :: 0 <= j < |cart| && j != i ==> KeyOf(cart[j]) != KeyOf(cart[i]);
    assert r == cart[i := cart[i].(quantity := newQuantity)];
    CountUpdate(cart, i, cart[i].(quantity := newQuantity));
  }

  lemma {:induction false} TotalUpdate(cart: seq<CartItem>, i: int, item: CartItem)
    requires 0 <= i < |cart|
    ensures CartTotal(cart[i := item]) == CartTotal(cart) - LineTotal(cart[i]) + LineTotal(item)
    decreases |cart|
  {
    var n := |cart|;
    if i < n - 1 {
      assert cart[i := item][..n - 1] == cart[..n - 1][i := item];
      TotalUpdate(cart[..n - 1], i, item);
    } else {
      assert cart[i := item][..n - 1] == cart[..n - 1];
    }
  }

  lemma {:induction false} CountUpdate(cart: seq<CartItem>, i: int, item: CartItem)
    requires 0 <= i < |cart|
    ensures CartItemsCount(cart[i := item]) == CartItemsCount(cart) - cart[i].quantity + item.quantity
    decreases |cart|
  {
    var n := |cart|;
    if i < n - 1 {
      assert cart[i := item][..n - 1] == cart[..n - 1][i := item];
      CountUpdate(cart[..n - 1], i, item);
    } else {
      assert cart[i := item][..n - 1] == cart[..n - 1];
    }
  }

  lemma AddMergeTotals(cart: seq<CartItem>, producto: ProductoConDetalles, sabor: Option<Sabor>, i: int)
    requires IsFirstMatch(cart, AddKey(producto, sabor), i)
    ensures CartItemsCount(AddToCart(cart, producto, sabor)) == CartItemsCount(cart) + 1
    ensures CartTotal(AddToCart(cart, producto, sabor)) == CartTotal(cart) + cart[i].producto.row.precio
  {
    MergedCount(cart, i);
    MergedTotal(cart, i);
    AddMergesAt(cart, producto, sabor, i);
  }

  /** One more unit on line `i` raises the count by one. */
  lemma MergedCount(cart: seq<CartItem>, i: int)
    requires 0 <= i < |cart|
    ensures CartItemsCount(cart[i := cart[i].(quantity := cart[i].quantity + 1)]) == CartItemsCount(cart) + 1
  {
    CountUpdate(cart, i, cart[i].(quantity := cart[i].quantity + 1));
  }

  /** One more unit on line `i` raises the total by that line's price. */
  lemma MergedTotal(cart: seq<CartItem>, i: int)
    requires 0 <= i < |cart|
    ensures CartTotal(cart[i := cart[i].(quantity := cart[i].quantity + 1)]) == CartTotal(cart) + cart[i].producto.row.precio
  {
    LineTotalOneMore(cart[i]);
    TotalUpdate(cart, i, cart[i].(quantity := cart[i].quantity + 1));
  }

  /** Adding a present key rewrites its first line only. */
  lemma AddMergesAt(cart: seq<CartItem>, producto: ProductoConDetalles, sabor: Option<Sabor>, i: int)
    requires IsFirstMatch(cart, AddKey(producto, sabor), i)
    ensures 0 <= i < |cart|
    ensures AddToCart(cart, producto, sabor) == cart[i := cart[i].(quantity := cart[i].quantity + 1)]
  {
  }

  /** One more unit on a line adds its price once. */
  lemma LineTotalOneMore(line: CartItem)
    ensures LineTotal(line.(quantity := line.quantity + 1)) == LineTotal(line) + line.producto.row.precio
  {
    var price := line.producto.row.precio;
    assert price * (line.quantity + 1) == price * line.quantity + price;
  }

  lemma AddAppendTotals(cart: seq<CartItem>, producto: ProductoConDetalles, sabor: Option<Sabor>)
    requires !HasKey(cart, AddKey(producto, sabor))
    ensures CartItemsCount(AddToCart(cart, producto, sabor)) == CartItemsCount(cart) + 1
    ensures CartTotal(AddToCart(cart, producto, sabor)) == CartTotal(cart) + producto.row.precio
  {
    var r := cart + [CartItem(producto, 1, sabor)];
    assert AddToCart(cart, producto, sabor) == r;
    assert r[..|cart|] == cart;
  }

  /**
   * Adding moves the aggregates by one unit: the count by 1 and the total by
   * the price snapshot of the line that absorbed the unit, which for a merge
   * is the price stored when the line was created, not the one passed now.
   */
  lemma AddRaisesTotals(cart: seq<CartItem>, producto: ProductoConDetalles, sabor: Option<Sabor>)
    ensures CartItemsCount(AddToCart(cart, producto, sabor)) == CartItemsCount(cart) + 1
    ensures forall i :: IsFirstMatch(cart, AddKey(producto, sabor), i) ==>
      CartTotal(AddToCart(cart, producto, sabor)) == CartTotal(cart) + cart[i].producto.row.precio
    ensures !HasKey(cart, AddKey(producto, sabor)) ==>
      CartTotal(AddToCart(cart, producto, sabor)) == CartTotal(cart) + producto.row.precio
  {
    var key := AddKey(producto, sabor);
    if HasKey(cart, key) {
      var i := FindIndex(cart, key);
      AddMergeTotals(cart, producto, sabor, i);
      forall j | IsFirstMatch(cart, key, j)
        ensures CartTotal(AddToCart(cart, producto, sabor)) == CartTotal(cart) + cart[j].producto.row.precio
      {
        assert j == i;
      }
    } else {
      AddAppendTotals(cart, producto, sabor);
    }
  }

  /** The operations a shopper can apply to the cart. */
  datatype CartOp =
    | Add(producto: ProductoConDetalles, sabor: Option<Sabor>)
    | Remove(productId: int, saborId: Option<int>)
    | Update(productId: int, saborId: Option<int>, newQuantity: int)
    | Clear

  function Apply(cart: seq<CartItem>, op: CartOp): seq<CartItem> {
    match op
    case Add(p, s) => AddToCart(cart, p, s)
    case Remove(id, s) => RemoveFromCart(cart, id, s)
    case Update(id, s, q) => UpdateQuantity(cart, id, s, q)
    case Clear => ClearCart(cart)
  }

  /** The cart after applying `ops` in order to the empty cart. */
  function Run(ops: seq<CartOp>): seq<CartItem>
    decreases |ops|
  {
    if |ops| == 0 then [] else Apply(Run(ops[..|ops| - 1]), ops[|ops| - 1])
  }

  /** Whatever the shopper does, the cart keeps one line per key and positive quantities. */
  lemma {:induction false} RunIsValid(ops: seq<CartOp>)
    ensures Valid(Run(ops))
    decreases |ops|
  {
    if |ops| > 0 {
      var prev := Run(ops[..|ops| - 1]);
      RunIsValid(ops[..|ops| - 1]);
      match ops[|ops| - 1]
      case Add(p, s) => AddPreservesValid(prev, p, s);
      case Remove(id, s) => RemovePreservesValid(prev, id, s);
      case Update(id, s, q) => UpdatePreservesValid(prev, id, s, q);
      case Clear =>
    }
  }

  /** `n` successive `addToCart(producto, sabor)` calls. */
  function AddRepeatedly(cart: seq<CartItem>, producto: ProductoConDetalles, sabor: Option<Sabor>, n: nat): seq<CartItem>
    decreases n
  {
    if n == 0 then cart else AddToCart(AddRepeatedly(cart, producto, sabor, n - 1), producto, sabor)
  }

  /** `n` additions of one key to the empty cart make a single line of quantity `n`. */
  lemma {:induction false} RepeatedAddMerges(producto: ProductoConDetalles, sabor: Option<Sabor>, n: nat)
    requires n >= 1
    ensures AddRepeatedly([], producto, sabor, n) == [CartItem(producto, n, sabor)]
    ensures CartItemsCount(AddRepeatedly([], producto, sabor, n)) == n
    decreases n
  {
    if n > 1 {
      RepeatedAddMerges(producto, sabor, n - 1);
      var prev := [CartItem(producto, n - 1, sabor)];
      assert IsFirstMatch(prev, AddKey(producto, sabor), 0);
      AddMergesAt(prev, producto, sabor, 0);
    } else {
      assert !HasKey([], AddKey(producto, sabor));
    }
    CountOfOneLine(CartItem(producto, n, sabor));
  }

  lemma CountOfOneLine(item: CartItem)
    ensures CartItemsCount([item]) == item.quantity
  {
  }

  /** Two additions under different keys (e.g. one product in two flavours) make two lines. */
  lemma DistinctKeysMakeTwoLines(p: ProductoConDetalles, s: Option<Sabor>, q: ProductoConDetalles, t: Option<Sabor>)
    requires AddKey(p, s) != AddKey(q, t)
    ensures AddToCart(AddToCart([], p, s), q, t) == [CartItem(p, 1, s), CartItem(q, 1, t)]
  {
    assert !HasKey([], AddKey(p, s));
    var one := [CartItem(p, 1, s)];
    assert !HasKey(one, AddKey(q, t));
  }
}

=== FILE: catalog.dfy ===
/**
 * The product listing page: the four filter criteria, the sort orders,
 * and the offer / vegan badge.
 */
module Catalog {
  import opened Wrappers
  import opened Types
  import Seqs
  import Strings
  import Sorting

  /** The filter panel: a category (None = all), selected flavour ids, and two switches. */
  datatype Filters = Filters(category: Option<int>, sabores: seq<int>, onlyInStock: bool, onlyOffers: bool)

  /** No category, no flavours, both switches off: the panel's initial state. */
  const NoFilters: Filters := Filters(None, [], false, false)

  /** The product lists at least one of the `selected` flavour ids (`sabores.some(id => selected.includes(id))`). */
  predicate SharesSabor(p: ProductoConDetalles, selected: seq<int>) {
    p.row.sabores.Some? && exists i :: 0 <= i < |p.row.sabores.value| && p.row.sabores.value[i] in selected
  }

  predicate MatchesCategory(p: ProductoConDetalles, f: Filters) {
    f.category.None? || p.row.categoria == f.category.value
  }

  predicate MatchesSabor(p: ProductoConDetalles, f: Filters) {
    |f.sabores| == 0 || SharesSabor(p, f.sabores)
  }

  predicate MatchesStock(p: ProductoConDetalles, f: Filters) {
    !f.onlyInStock || p.row.cantidadStock > 0
  }

  predicate MatchesOffers(p: ProductoConDetalles, f: Filters) {
    !f.onlyOffers || p.row.isOferta
  }

  predicate Matches(p: ProductoConDetalles, f: Filters) {
    MatchesCategory(p, f) && MatchesSabor(p, f) && MatchesStock(p, f) && MatchesOffers(p, f)
  }

  function Keep(f: Filters): ProductoConDetalles -> bool {
    p => Matches(p, f)
  }

  /** `filteredProducts`: the matching products, in their listed order, none lost. */
  function FilteredProducts(ps: seq<ProductoConDetalles>, f: Filters): (r: seq<ProductoConDetalles>)
    ensures forall i :: 0 <= i < |r| ==> Matches(r[i], f)
    ensures Seqs.IsSubseq(r, ps)
    ensures forall i :: 0 <= i < |ps| && Matches(ps[i], f) ==> multiset(r)[ps[i]] == multiset(ps)[ps[i]]
  {
    var keep := Keep(f);
    var r := Seqs.Filter(keep, ps);
    Seqs.FilterIsSubseq(keep, ps);
    assert forall i :: 0 <= i < |ps| && keep(ps[i]) ==> multiset(r)[ps[i]] == multiset(ps)[ps[i]] by {
      forall i | 0 <= i < |ps| && keep(ps[i]) {
        Seqs.FilterKeepsCount(keep, ps, ps[i]);
      }
    }
    r
  }

  /** With the panel in its initial state every product is listed, in order. */
  lemma NoFiltersListsAll(ps: seq<ProductoConDetalles>)
    ensures FilteredProducts(ps, NoFilters) == ps
  {
    Seqs.FilterKeepsAll(Keep(NoFilters), ps);
  }

  /** A panel state matches exactly when each of its four criteria, set alone, matches. */
  lemma MatchesByCriterion(p: ProductoConDetalles, f: Filters)
    ensures Matches(p, Filters(f.category, f.sabores, false, false))
      == (Matches(p, Filters(f.category, [], false, false)) && Matches(p, Filters(None, f.sabores, false, false)))
    ensures Matches(p, Filters(f.category, f.sabores, f.onlyInStock, false))
      == (Matches(p, Filters(f.category, f.sabores, false, false)) && Matches(p, Filters(None, [], f.onlyInStock, false)))
    ensures Matches(p, f)
      == (Matches(p, Filters(f.category, f.sabores, f.onlyInStock, false)) && Matches(p, Filters(None, [], false, f.onlyOffers)))
  {
  }

  /** Filtering twice is filtering once by a panel state that combines both. */
  lemma FilterTwice(ps: seq<ProductoConDetalles>, g: Filters, h: Filters, gh: Filters)
    requires forall i :: 0 <= i < |ps| ==> Matches(ps[i], gh) == (Matches(ps[i], g) && Matches(ps[i], h))
    ensures FilteredProducts(FilteredProducts(ps, g), h) == FilteredProducts(ps, gh)
  {
    assert FilteredProducts(ps, g) == Seqs.Filter(Keep(g), ps);
    assert FilteredProducts(ps, gh) == Seqs.Filter(Keep(gh), ps);
    assert FilteredProducts(Seqs.Filter(Keep(g), ps), h) == Seqs.Filter(Keep(h), Seqs.Filter(Keep(g), ps));
    Seqs.FilterCompose(Keep(g), Keep(h), Keep(gh), ps);
  }

  /**
   * The criteria are independent: the combined filter is the category
   * filter, then the flavour filter, then the stock switch, then the offer
   * switch, each applied alone to the previous result.
   */
  lemma FiltersCompose(ps: seq<ProductoConDetalles>, f: Filters)
    ensures FilteredProducts(ps, f)
      == FilteredProducts(FilteredProducts(FilteredProducts(FilteredProducts(ps,
           Filters(f.category, [], false, false)),
           Filters(None, f.sabores, false, false)),
           Filters(None, [], f.onlyInStock, false)),
           Filters(None, [], false, f.onlyOffers))
  {
    var f1 := Filters(f.category, [], false, false);
    var f2 := Filters(None, f.sabores, false, false);
    var f3 := Filters(None, [], f.onlyInStock, false);
    var f4 := Filters(None, [], false, f.onlyOffers);
    var g12 := Filters(f.category, f.sabores, false, false);
    var g123 := Filters(f.category, f.sabores, f.onlyInStock, false);
    forall i | 0 <= i < |ps| {
      MatchesByCriterion(ps[i], f);
    }
    FilterTwice(ps, f1, f2, g12);
    FilterTwice(ps, g12, f3, g123);
    FilterTwice(ps, g123, f4, f);
  }

  /** Once a flavour is selected, a product whose flavour list is null is never listed. */
  lemma NullSaboresExcluded(ps: seq<ProductoConDetalles>, f: Filters, p: ProductoConDetalles)
    requires |f.sabores| > 0 && p.row.sabores.None?
    ensures p !in FilteredProducts(ps, f)
  {
  }

  /** Ticking more flavours never hides a product, as long as one flavour was already ticked. */
  lemma MoreSaboresListMore(p: ProductoConDetalles, f: Filters, extra: seq<int>)
    requires |f.sabores| > 0
    ensures Matches(p, f) ==> Matches(p, f.(sabores := f.sabores + extra))
  {
    if Matches(p, f) {
      var ids := p.row.sabores.value;
      var i :| 0 <= i < |ids| && ids[i] in f.sabores;
      assert ids[i] in f.sabores + extra;
    }
  }

  /** The sort menu; sorting by name (a locale collation) is not modelled. */
  datatype SortBy = PrecioAsc | PrecioDesc | Stock | Newest

  /** The integer key whose ascending stable order is the page's order for `sortBy`. */
  function SortKey(sortBy: SortBy, instant: string -> int): ProductoConDetalles -> int {
    match sortBy
    case PrecioAsc => (p: ProductoConDetalles) => p.row.precio
    case PrecioDesc => (p: ProductoConDetalles) => -(p.row.precio as int)
    case Stock => (p: ProductoConDetalles) => -p.row.cantidadStock
    case Newest => (p: ProductoConDetalles) => -instant(p.row.createdAt)
  }

  /**
   * `sortedProducts`: a permutation of the list, cheapest first, dearest
   * first, most stock first, or newest first (`instant` is the creation
   * date's timestamp).
   */
  function SortProducts(ps: seq<ProductoConDetalles>, sortBy: SortBy, instant: string -> int): (r: seq<ProductoConDetalles>)
    ensures multiset(r) == multiset(ps)
    ensures sortBy == PrecioAsc ==> forall i, j :: 0 <= i < j < |r| ==> r[i].row.precio <= r[j].row.precio
    ensures sortBy == PrecioDesc ==> forall i, j :: 0 <= i < j < |r| ==> r[i].row.precio >= r[j].row.precio
    ensures sortBy == Stock ==> forall i, j :: 0 <= i < j < |r| ==> r[i].row.cantidadStock >= r[j].row.cantidadStock
    ensures sortBy == Newest ==> forall i, j :: 0 <= i < j < |r| ==> instant(r[i].row.createdAt) >= instant(r[j].row.createdAt)
  {
    var key := SortKey(sortBy, instant);
    var r := Sorting.SortByKey(key, ps);
    assert forall i, j :: 0 <= i < j < |r| ==> key(r[i]) <= key(r[j]);
    r
  }

  /** `getBadgeText`: "Oferta" for any offer, else "Vegano" when the category mentions "vegetal". */
  function BadgeText(p: ProductoConDetalles): (r: Option<string>)
    ensures p.row.isOferta ==> r == Some("Oferta")
    ensures !p.row.isOferta ==>
      (r == Some("Vegano") <==>
        p.categoriaInfo.Some?
        && exists i :: Strings.OccursAt(Strings.ToLower(p.categoriaInfo.value.descripcion), "vegetal", i))
    ensures r == None || r == Some("Oferta") || r == Some("Vegano")
  {
    if p.row.isOferta then Some("Oferta")
    else if p.categoriaInfo.Some? && Strings.Contains(Strings.ToLower(p.categoriaInfo.value.descripcion), "vegetal") then
      Some("Vegano")
    else None
  }
}

=== FILE: checkout.dfy ===
/**
 * The cart page's checkout rules: the shipping charge, the order summary,
 * the phone-number filter, and the checks run before the order is sent
 * as a WhatsApp message.
 */
module Checkout {
  import opened Wrappers
  import opened Types
  import opened Cart
  import CartProperties
  import Seqs
  import Strings

  /** Orders strictly above this subtotal ship for free. */
  const FreeShippingAbove: int := 50000
  /** The flat shipping charge otherwise. */
  const ShippingFee: int := 8000

  /** The shipping charge: nothing for an empty cart, free strictly above the threshold, else the fee. */
  function Shipping(cart: seq<CartItem>): (r: int)
    ensures r == 0 || r == ShippingFee
    ensures |cart| == 0 ==> r == 0
    ensures |cart| > 0 ==> (r == 0 <==> CartTotal(cart) > FreeShippingAbove)
  {
    if |cart| > 0 then (if CartTotal(cart) > FreeShippingAbove then 0 else ShippingFee) else 0
  }

  datatype Summary = Summary(subtotal: int, shipping: int, total: int)

  /** The order summary: the subtotal is the cart total and the total adds shipping to it. */
  function Summarize(cart: seq<CartItem>): (s: Summary)
    ensures s.subtotal == CartTotal(cart)
    ensures s.shipping == Shipping(cart)
    ensures s.total == s.subtotal + s.shipping
    ensures s.total >= s.subtotal
  {
    var subtotal := CartTotal(cart);
    var shipping := Shipping(cart);
    Summary(subtotal, shipping, subtotal + shipping)
  }

  /** Whether the "your order ships for free" note is shown. */
  predicate ShowsFreeShippingNote(s: Summary) {
    s.shipping == 0 && s.subtotal > 0
  }

  /** The note shows exactly for a non-empty cart whose subtotal exceeds the threshold. */
  lemma FreeShippingNoteIff(cart: seq<CartItem>)
    ensures ShowsFreeShippingNote(Summarize(cart)) <==> |cart| > 0 && CartTotal(cart) > FreeShippingAbove
  {
    if |cart| == 0 {
      assert CartTotal(cart) == 0;
    }
  }

  /** Once the cart holds a line, adding a product never makes shipping dearer. */
  lemma AddNeverRaisesShipping(cart: seq<CartItem>, producto: ProductoConDetalles, sabor: Option<Sabor>)
    requires |cart| > 0
    ensures Shipping(AddToCart(cart, producto, sabor)) <= Shipping(cart)
  {
    CartProperties.AddRaisesTotals(cart, producto, sabor);
    var key := AddKey(producto, sabor);
    if HasKey(cart, key) {
      var i := FindIndex(cart, key);
      assert |AddToCart(cart, producto, sabor)| == |cart|;
    }
  }

  /** `sanitizePhoneNumber`: the decimal digits of the input, in order (`replace(/[^\d]/g, "")`). */
  function SanitizePhoneNumber(input: string): (r: string)
    ensures |r| <= |input|
    ensures forall i :: 0 <= i < |r| ==> Strings.IsDigit(r[i])
    ensures Seqs.IsSubseq(r, input)
    ensures forall i :: 0 <= i < |input| && Strings.IsDigit(input[i]) ==>
      multiset(r)[input[i]] == multiset(input)[input[i]]
  {
    var r := Seqs.Filter(Strings.IsDigit, input);
    Seqs.FilterIsSubseq(Strings.IsDigit, input);
    assert forall i :: 0 <= i < |input| && Strings.IsDigit(input[i]) ==>
      multiset(r)[input[i]] == multiset(input)[input[i]] by {
      forall i | 0 <= i < |input| && Strings.IsDigit(input[i]) {
        Seqs.FilterKeepsCount(Strings.IsDigit, input, input[i]);
      }
    }
    r
  }

  /** Sanitizing twice is sanitizing once; an all-digit number is left alone. */
  lemma SanitizeIdempotent(input: string)
    ensures SanitizePhoneNumber(SanitizePhoneNumber(input)) == SanitizePhoneNumber(input)
    ensures (forall i :: 0 <= i < |input| ==> Strings.IsDigit(input[i])) ==> SanitizePhoneNumber(input) == input
  {
    Seqs.FilterKeepsAll(Strings.IsDigit, SanitizePhoneNumber(input));
    if forall i :: 0 <= i < |input| ==> Strings.IsDigit(input[i]) {
      Seqs.FilterKeepsAll(Strings.IsDigit, input);
    }
  }

  /** One numbered line of the order message. */
  datatype OrderLine = OrderLine(number: int, nombre: string, sabor: Option<string>, quantity: int, amount: int)

  /** The WhatsApp order message, before it is rendered to text. */
  datatype OrderMessage = OrderMessage(
    fullName: string, ciRuc: string, address: string,
    items: seq<OrderLine>, subtotal: int, shipping: int, total: int)

  function LineOf(item: CartItem, number: int): OrderLine {
    var sabor := match item.saborSeleccionado case Some(s) => Some(s.descripcion) case None => None;
    OrderLine(number, item.producto.row.nombre, sabor, item.quantity, LineTotal(item))
  }

  /** The item lines: one per cart line, numbered from 1 in cart order. */
  function ItemLines(cart: seq<CartItem>): (r: seq<OrderLine>)
    ensures |r| == |cart|
    ensures forall i :: 0 <= i < |cart| ==> r[i] == LineOf(cart[i], i + 1)
  {
    seq(|cart|, i requires 0 <= i < |cart| => LineOf(cart[i], i + 1))
  }

  function SumAmounts(lines: seq<OrderLine>): int
    decreases |lines|
  {
    if |lines| == 0 then 0 else SumAmounts(lines[..|lines| - 1]) + lines[|lines| - 1].amount
  }

  /** The amounts printed on the item lines add up to the subtotal printed below them. */
  lemma {:induction false} ItemLinesSumToSubtotal(cart: seq<CartItem>)
    ensures SumAmounts(ItemLines(cart)) == CartTotal(cart)
    decreases |cart|
  {
    if |cart| > 0 {
      var n := |cart|;
      assert ItemLines(cart)[..n - 1] == ItemLines(cart[..n - 1]);
      ItemLinesSumToSubtotal(cart[..n - 1]);
    }
  }

  function BuildMessage(fullName: string, ciRuc: string, address: string, cart: seq<CartItem>): OrderMessage {
    var s := Summarize(cart);
    OrderMessage(fullName, ciRuc, address, ItemLines(cart), s.subtotal, s.shipping, s.total)
  }

  datatype CheckoutResult =
    | MissingContactData
    | EmptyCart
    | OpenWhatsapp(phone: string, message: OrderMessage)

  /**
   * `handleCheckoutWhatsapp`: blank contact fields are refused first, then an
   * empty cart; otherwise the chat opens to the shop's phone digits with the
   * order message.
   */
  function HandleCheckout(fullName: string, ciRuc: string, address: string, cart: seq<CartItem>, shopPhone: string): (r: CheckoutResult)
    ensures r == MissingContactData <==>
      Strings.IsBlank(fullName) || Strings.IsBlank(ciRuc) || Strings.IsBlank(address)
    ensures r == EmptyCart <==>
      !Strings.IsBlank(fullName) && !Strings.IsBlank(ciRuc) && !Strings.IsBlank(address) && |cart| == 0
    ensures r.OpenWhatsapp? <==>
      !Strings.IsBlank(fullName) && !Strings.IsBlank(ciRuc) && !Strings.IsBlank(address) && |cart| > 0
    ensures r.OpenWhatsapp? ==> r.phone == SanitizePhoneNumber(shopPhone)
    // the message carries the contact data as typed and the cart's lines and sums
    ensures r.OpenWhatsapp? ==>
              var m := r.message;
              && m.fullName == fullName && m.ciRuc == ciRuc && m.address == address
              && |m.items| == |cart|
              && (forall i :: 0 <= i < |cart| ==> m.items[i] == LineOf(cart[i], i + 1))
              && m.subtotal == CartTotal(cart) && m.shipping == Shipping(cart)
              && m.total == m.subtotal + m.shipping
              && SumAmounts(m.items) == m.subtotal
  {
    if Strings.Trim(fullName) == "" || Strings.Trim(ciRuc) == "" || Strings.Trim(address) == "" then
      MissingContactData
    else if |cart| == 0 then
      EmptyCart
    else
      ItemLinesSumToSubtotal(cart);
      OpenWhatsapp(SanitizePhoneNumber(shopPhone), BuildMessage(fullName, ciRuc, address, cart))
  }
}

=== FILE: http.dfy ===
/**
 * What the admin API routes share: the process environment they read,
 * the error messages they answer with, the shape of a JSON response, and
 * the check `getSupabaseAdmin` makes before building the service-role
 * client.
 */
module Http {
  import opened Wrappers
  import ProductSchema

  /**
   * The environment variables the routes read; the empty string stands
   * for a variable that is not set (both are falsy to the source).
   */
  datatype Env = Env(
    supabaseUrl: string,     // NEXT_PUBLIC_SUPABASE_URL
    anonKey: string,         // NEXT_PUBLIC_SUPABASE_ANON_KEY
    serviceRoleKey: string,  // SUPABASE_SERVICE_ROLE_KEY
    adminEmails: string,     // ADMIN_EMAILS
    storageBucket: string,   // SUPABASE_STORAGE_BUCKET
    publicBucket: string)    // NEXT_PUBLIC_SUPABASE_BUCKET

  /** The `error` field of an error response. */
  datatype ErrorMessage =
    | Unauthorized
    | Forbidden
    | EnvsMissing                    // thrown by the guard and not caught: the framework answers 500
    | MissingEnv(variable: string)   // thrown by `getSupabaseAdmin`
    | InvalidJson
    | InvalidForm                    // the message of the error `formData()` throws on a body that is not a form
    | Invalid(issues: seq<ProductSchema.Column>)
    | IdRequired
    | FileRequired
    | PathRequired
    | StoreFailed(message: string)   // an error reported by the database or storage

  datatype Body<+T> = Data(data: T) | Error(error: ErrorMessage)

  datatype Response<+T> = Response(status: int, body: Body<T>)

  /** The reply of the database or storage service to the call a handler makes. */
  datatype StoreReply<+T> = Stored(value: T) | StoreError(message: string)

  /** What a handler did: the service call it made, if any, and the response it sent. */
  datatype Handled<+C, +T> = Handled(call: Option<C>, response: Response<T>)

  /** The error `getSupabaseAdmin` throws, if any. */
  function AdminClientError(env: Env): (r: Option<ErrorMessage>)
    ensures r.None? <==> env.supabaseUrl != "" && env.serviceRoleKey != ""
    ensures env.supabaseUrl == "" ==> r == Some(MissingEnv("NEXT_PUBLIC_SUPABASE_URL"))
    ensures env.supabaseUrl != "" && env.serviceRoleKey == "" ==> r == Some(MissingEnv("SUPABASE_SERVICE_ROLE_KEY"))
  {
    if env.supabaseUrl == "" then Some(MissingEnv("NEXT_PUBLIC_SUPABASE_URL"))
    else if env.serviceRoleKey == "" then Some(MissingEnv("SUPABASE_SERVICE_ROLE_KEY"))
    else None
  }
}

=== FILE: image_uploader.dfy ===
/**
 * The image field of the admin page: a single image URL or a list of
 * them, changed by uploading files, adding a URL by hand, or removing an
 * image.
 *
 * Each operation returns the value it hands to `onChange`, or `None` when
 * it does not call it. The uploads' outcomes are handed in, one per file
 * (`None` for a failed upload); whether a string parses as a URL is the
 * `isUrl` predicate.
 */
module ImageUploader {
  import opened Wrappers
  import Seqs
  import Strings
  import Storage
  import UploadRoute

  /** The field's value: one URL (`""` for none) or a list of URLs. */
  datatype ImageValue = Single(url: string) | Multiple(urls: seq<string>)

  /** Which image to remove: the one at a position, or every one with a URL. */
  datatype RemoveTarget = AtIndex(index: int) | ByUrl(url: string)

  /** The URLs the field shows. */
  function CurrentValues(v: ImageValue): (r: seq<string>)
    ensures v.Multiple? ==> r == v.urls
    ensures v.Single? ==> (r == [] <==> v.url == "") && (v.url != "" ==> r == [v.url])
  {
    match v
    case Multiple(urls) => urls
    case Single(url) => if url != "" then [url] else []
  }

  /** The whole sequence but position `i`; unchanged when there is no such position. */
  function WithoutIndex<T>(s: seq<T>, i: int): (r: seq<T>)
    ensures 0 <= i < |s| ==> r == s[..i] + s[i + 1..] && |r| == |s| - 1
    ensures !(0 <= i < |s|) ==> r == s
  {
    if 0 <= i < |s| then s[..i] + s[i + 1..] else s
  }

  /** The object path a file is uploaded to at instant `now`: `productos/<now>_<safe name>`. */
  function FilePath(now: nat, fileName: string): (p: string)
    ensures Storage.NamesUpload(p, "productos/", now, fileName)
    ensures |p| == |"productos/"| + |Strings.NatToString(now)| + 1 + Strings.Utf16Length(fileName)
  {
    Storage.TimestampedPath("productos/", now, fileName)
  }

  /** The upload route stores each file at exactly the path the uploader chose for it. */
  lemma UploadRouteKeepsChosenPath(now: nat, serverNow: nat, file: UploadRoute.FormFile)
    ensures UploadRoute.UploadPath(Some(FilePath(now, file.name)), serverNow, file) == FilePath(now, file.name)
  {
  }

  /**
   * The new value after uploading files whose public URLs are `uploads`:
   * nothing when no file was chosen or any upload failed; otherwise the
   * URLs are appended (multiple) or the first one replaces the value.
   */
  function HandleFiles(v: ImageValue, multiple: bool, uploads: seq<Option<string>>): (r: Option<ImageValue>)
    ensures r.Some? <==> |uploads| > 0 && forall i :: 0 <= i < |uploads| ==> uploads[i].Some?
    ensures r.Some? && multiple ==>
              && r.value.Multiple?
              && |r.value.urls| == |CurrentValues(v)| + |uploads|
              && r.value.urls[..|CurrentValues(v)|] == CurrentValues(v)
              && forall i :: 0 <= i < |uploads| ==> Some(r.value.urls[|CurrentValues(v)| + i]) == uploads[i]
    ensures r.Some? && !multiple ==> r.value == Single(uploads[0].value)
  {
    if |uploads| == 0 || exists i :: 0 <= i < |uploads| && uploads[i].None? then None
    else
      var urls := Seqs.Map((u: Option<string>) => u.GetOr(""), uploads);
      if multiple then Some(Multiple(CurrentValues(v) + urls)) else Some(Single(urls[0]))
  }

  /** Removes an image: by position or URL in a list, or clears a single image. */
  function RemoveImage(v: ImageValue, multiple: bool, target: RemoveTarget): (r: ImageValue)
    ensures !multiple ==> r == Single("")
    ensures multiple && target.AtIndex? ==> r == Multiple(WithoutIndex(CurrentValues(v), target.index))
    ensures multiple && target.ByUrl? ==>
              && r.Multiple?
              && target.url !in r.urls
              && Seqs.IsSubseq(r.urls, CurrentValues(v))
              && (forall i :: 0 <= i < |CurrentValues(v)| && CurrentValues(v)[i] != target.url
                    ==> multiset(r.urls)[CurrentValues(v)[i]] == multiset(CurrentValues(v))[CurrentValues(v)[i]])
  {
    if !multiple then Single("")
    else match target
      case AtIndex(i) => Multiple(WithoutIndex(CurrentValues(v), i))
      case ByUrl(u) => Multiple(Seqs.RemoveAll(CurrentValues(v), u))
  }

  /** Adds a URL typed by hand: blank input and invalid URLs change nothing. */
  function AddUrlManually(v: ImageValue, multiple: bool, url: string, isUrl: string -> bool): (r: Option<ImageValue>)
    ensures r.Some? <==> !Strings.IsBlank(url) && isUrl(url)
    ensures r.Some? && multiple ==> r.value == Multiple(CurrentValues(v) + [url])
    ensures r.Some? && !multiple ==> r.value == Single(url)
  {
    if Strings.Trim(url) == "" then None
    else if !isUrl(url) then None
    else if multiple then Some(Multiple(CurrentValues(v) + [url]))
    else Some(Single(url))
  }

  /** Adding a new URL to a list and removing the last image gives the list back. */
  lemma AddThenRemoveLast(urls: seq<string>, url: string, isUrl: string -> bool)
    requires !Strings.IsBlank(url) && isUrl(url)
    ensures RemoveImage(AddUrlManually(Multiple(urls), true, url, isUrl).value, true, AtIndex(|urls|)) == Multiple(urls)
  {
    assert (urls + [url])[..|urls|] == urls;
  }

  /** Adding a URL that was not in the list and removing it by URL gives the list back. */
  lemma AddThenRemoveByUrl(urls: seq<string>, url: string, isUrl: string -> bool)
    requires !Strings.IsBlank(url) && isUrl(url) && url !in urls
    ensures RemoveImage(AddUrlManually(Multiple(urls), true, url, isUrl).value, true, ByUrl(url)) == Multiple(urls)
  {
    Seqs.RemoveAllAppended(urls, url);
  }
}

=== FILE: middleware.dfy ===
/**
 * The request middleware in front of the admin API. It runs only for the
 * paths its matcher `/api/admin/:path*` selects; there, a request without
 * an `Authorization` header is answered 401 and everything else goes on to
 * its route. It checks only that the header is there; the route's guard
 * checks what it says.
 */
module Middleware {
  import opened Wrappers
  import Strings
  import opened Http
  import AdminGuard

  datatype Outcome = Continue | Refuse(status: int, error: ErrorMessage)

  const AdminApiPrefix: string := "/api/admin"

  /** The matcher `/api/admin/:path*`: `/api/admin` itself and every path below it. */
  predicate Selected(pathname: string) {
    pathname == AdminApiPrefix || Strings.StartsWith(pathname, AdminApiPrefix + "/")
  }

  /**
   * What happens before routing: a path the matcher does not select skips
   * the middleware; otherwise its `startsWith` test and header check run.
   */
  function Decide(pathname: string, authorization: Option<string>): (o: Outcome)
    ensures o.Refuse? ==> o == Refuse(401, Unauthorized)
    ensures !Selected(pathname) ==> o == Continue
    ensures Selected(pathname) ==> (o.Refuse? <==> authorization.GetOr("") == "")
  {
    if !Selected(pathname) then Continue
    else if !Strings.StartsWith(pathname, AdminApiPrefix) then Continue
    else if authorization.GetOr("") == "" then Refuse(401, Unauthorized)
    else Continue
  }

  /** Every path the matcher selects passes the middleware's own `startsWith` test. */
  lemma SelectedStartsWithPrefix(pathname: string)
    requires Selected(pathname)
    ensures Strings.StartsWith(pathname, AdminApiPrefix)
  {
    if pathname != AdminApiPrefix {
      assert pathname[..|AdminApiPrefix|] == (AdminApiPrefix + "/")[..|AdminApiPrefix|];
    }
  }

  /** A path that merely begins with `/api/admin` is not selected, so even without a header it goes on to routing. */
  lemma LookalikePathSkipsMiddleware()
    ensures !Selected("/api/administrators")
    ensures Decide("/api/administrators", None) == Continue
  {
    var p := "/api/administrators";
    assert p[..11][10] == 'i' && (AdminApiPrefix + "/")[10] == '/';
  }

  /** Every request the admin guard lets through also got past the middleware. */
  lemma GuardPassImpliesContinue(env: Env, pathname: string, authorization: Option<string>, lookup: AdminGuard.UserLookup)
    requires AdminGuard.AssertAdmin(env, authorization, lookup).decision.Pass?
    ensures Decide(pathname, authorization) == Continue
  {
    var t := AdminGuard.BearerToken(authorization);
    assert authorization.value == AdminGuard.BearerPrefix + t.value;
  }

  /**
   * The middleware refuses nothing the guard would let through: once the
   * Supabase settings are present, a request it refuses gets the same 401
   * from the guard.
   */
  lemma RefusalAgreesWithGuard(env: Env, pathname: string, authorization: Option<string>, lookup: AdminGuard.UserLookup)
    requires env.supabaseUrl != "" && env.anonKey != ""
    requires Decide(pathname, authorization).Refuse?
    ensures AdminGuard.AssertAdmin(env, authorization, lookup).decision == AdminGuard.Reject(401, Unauthorized)
  {
  }

  /**
   * A header that is present but carries no bearer token (`Basic x`,
   * `Bearer ` alone) gets past the middleware and is refused by the route's
   * guard with the same 401, without the auth service being asked.
   */
  lemma MalformedHeaderPassesMiddleware(env: Env, pathname: string, header: string, lookup: AdminGuard.UserLookup)
    requires env.supabaseUrl != "" && env.anonKey != ""
    requires header != "" && AdminGuard.BearerToken(Some(header)).None?
    ensures Decide(pathname, Some(header)) == Continue
    ensures AdminGuard.AssertAdmin(env, Some(header), lookup) == AdminGuard.GuardResult(None, AdminGuard.Reject(401, Unauthorized))
  {
  }
}

=== FILE: product_schema.dfy ===
/**
 * The product payload schema shared by the admin form and the admin
 * products API: which JSON fields a product payload may carry, which
 * values each accepts, which defaults apply, and the typed values a
 * payload that passes turns into.
 *
 * JSON numbers are modelled as `real` (a JavaScript number without
 * rounding); "an integer" means a real with no fractional part. Whether a
 * string is a URL is decided by the `isUrl` predicate handed in.
 *
 * The rules are those of zod 3: a default stands in for a field left out
 * and is then checked like a sent value (so an absent `url_imagen` is
 * checked as the URL `""`), and `.partial()` makes every field optional
 * without applying any default.
 */
module ProductSchema {
  import opened Wrappers
  import opened Types
  import Seqs
  import Strings

  /** The fields of a product payload, in the order the schema declares them. */
  datatype Column =
    | Nombre | Descripcion | Precio | Categoria | IsActivo | IsOferta
    | CantidadStock | Sabores | UrlImagen | GaleriaUrls | Id

  /** A product payload as received: every field may be left out, null, or carry a value. */
  datatype Payload = Payload(
    id: Field<real>,
    nombre: Field<string>,
    descripcion: Field<string>,
    precio: Field<real>,
    categoria: Field<real>,
    isActivo: Field<bool>,
    isOferta: Field<bool>,
    cantidadStock: Field<real>,
    sabores: Field<seq<real>>,
    urlImagen: Field<string>,
    galeriaUrls: Field<seq<string>>)

  /**
   * The three schemas: the admin form (no gallery, unknown keys dropped),
   * the create schema of the API, and the update schema (every field
   * optional, no defaults, plus a required integer `id`).
   */
  datatype Schema = FormSchema | CreateSchema | UpdateSchema

  /** Values of a payload accepted by the form or the create schema, defaults applied. */
  datatype CreateValues = CreateValues(
    nombre: string,
    descripcion: Field<string>,
    precio: real,
    categoria: int,
    isActivo: bool,
    isOferta: bool,
    cantidadStock: nat,
    sabores: Field<seq<int>>,
    urlImagen: string,
    galeriaUrls: Field<seq<string>>)

  /** Values of a payload accepted by the update schema; `None` is a field left out. */
  datatype UpdateValues = UpdateValues(
    id: int,
    nombre: Option<string>,
    descripcion: Field<string>,
    precio: Option<real>,
    categoria: Option<int>,
    isActivo: Option<bool>,
    isOferta: Option<bool>,
    cantidadStock: Option<nat>,
    sabores: Field<seq<int>>,
    urlImagen: Option<string>,
    galeriaUrls: Field<seq<string>>)

  /** zod's `.min(2)` on a string: at least two UTF-16 code units. */
  predicate NameOk(s: string) {
    Strings.Utf16Length(s) >= 2
  }

  /** A single emoji is a long enough name, as it is two code units; a single letter is not. */
  lemma NameOkCountsCodeUnits()
    ensures NameOk("\U{1F600}") && !NameOk("a")
  {
    assert "\U{1F600}"[..0] == "" && "a"[..0] == "";
  }

  predicate IsInt(x: real) {
    x.Floor as real == x
  }

  predicate AllInts(xs: seq<real>) {
    forall i :: 0 <= i < |xs| ==> IsInt(xs[i])
  }

  predicate AllUrls(us: seq<string>, isUrl: string -> bool) {
    forall i :: 0 <= i < |us| ==> isUrl(us[i])
  }

  /** A required field: left out only under the update schema, never null. */
  predicate RequiredOk<T>(f: Field<T>, partial: bool, ok: T -> bool) {
    match f
    case Absent => partial
    case Null => false
    case Present(v) => ok(v)
  }

  /**
   * A field with a default: never null; left out, it is fine under the
   * update schema and otherwise takes the default, which is then checked.
   */
  predicate DefaultedOk<T>(f: Field<T>, partial: bool, default: T, ok: T -> bool) {
    match f
    case Absent => partial || ok(default)
    case Null => false
    case Present(v) => ok(v)
  }

  /** An optional nullable field. */
  predicate NullableOk<T>(f: Field<T>, ok: T -> bool) {
    match f
    case Present(v) => ok(v)
    case _ => true
  }

  function Check(ok: bool, c: Column): seq<Column> {
    if ok then [] else [c]
  }

  /** The fields of `raw` the schema rejects, in declaration order. */
  function Issues(raw: Payload, schema: Schema, isUrl: string -> bool): (r: seq<Column>)
    ensures (schema == FormSchema ==> GaleriaUrls !in r) && (schema != UpdateSchema ==> Id !in r)
  {
    var partial := schema == UpdateSchema;
    Check(RequiredOk(raw.nombre, partial, NameOk), Nombre)
    + Check(NullableOk(raw.descripcion, (s: string) => true), Descripcion)
    + Check(RequiredOk(raw.precio, partial, (x: real) => x >= 0.0), Precio)
    + Check(RequiredOk(raw.categoria, partial, IsInt), Column.Categoria)
    + Check(DefaultedOk(raw.isActivo, partial, true, (b: bool) => true), IsActivo)
    + Check(DefaultedOk(raw.isOferta, partial, false, (b: bool) => true), IsOferta)
    + Check(RequiredOk(raw.cantidadStock, partial, (x: real) => IsInt(x) && x >= 0.0), CantidadStock)
    + Check(NullableOk(raw.sabores, AllInts), Sabores)
    + Check(DefaultedOk(raw.urlImagen, partial, "", isUrl), UrlImagen)
    + Check(schema == FormSchema || NullableOk(raw.galeriaUrls, (us: seq<string>) => AllUrls(us, isUrl)), GaleriaUrls)
    + Check(schema != UpdateSchema || RequiredOk(raw.id, false, IsInt), Id)
  }

  /**
   * The create rules, field by field: a name of at least two UTF-16 code units, a
   * non-negative price, an integer category, an integer non-negative
   * stock, integer flavour ids, flags that are not null, an image URL
   * (`""` when left out) and, for the API, gallery entries that are URLs.
   */
  predicate CreateRulesHold(raw: Payload, stripGaleria: bool, isUrl: string -> bool) {
    && raw.nombre.Present? && NameOk(raw.nombre.value)
    && raw.precio.Present? && raw.precio.value >= 0.0
    && raw.categoria.Present? && IsInt(raw.categoria.value)
    && !raw.isActivo.Null? && !raw.isOferta.Null?
    && raw.cantidadStock.Present? && IsInt(raw.cantidadStock.value) && raw.cantidadStock.value >= 0.0
    && (raw.sabores.Present? ==> AllInts(raw.sabores.value))
    && !raw.urlImagen.Null? && isUrl(if raw.urlImagen.Present? then raw.urlImagen.value else "")
    && (stripGaleria || !raw.galeriaUrls.Present? || AllUrls(raw.galeriaUrls.value, isUrl))
  }

  /**
   * The update rules: an integer id, and every other field either left out
   * or valid as under the create rules (nullable fields may also be null).
   */
  predicate UpdateRulesHold(raw: Payload, isUrl: string -> bool) {
    && raw.id.Present? && IsInt(raw.id.value)
    && !raw.nombre.Null? && (raw.nombre.Present? ==> NameOk(raw.nombre.value))
    && !raw.precio.Null? && (raw.precio.Present? ==> raw.precio.value >= 0.0)
    && !raw.categoria.Null? && (raw.categoria.Present? ==> IsInt(raw.categoria.value))
    && !raw.isActivo.Null? && !raw.isOferta.Null?
    && !raw.cantidadStock.Null?
    && (raw.cantidadStock.Present? ==> IsInt(raw.cantidadStock.value) && raw.cantidadStock.value >= 0.0)
    && (raw.sabores.Present? ==> AllInts(raw.sabores.value))
    && !raw.urlImagen.Null? && (raw.urlImagen.Present? ==> isUrl(raw.urlImagen.value))
    && (raw.galeriaUrls.Present? ==> AllUrls(raw.galeriaUrls.value, isUrl))
  }

  function FieldOr<T>(f: Field<T>, default: T): T {
    match f
    case Present(v) => v
    case _ => default
  }

  /** The value of a field, `None` when it is left out or null. */
  function FieldToOption<T>(f: Field<T>): (o: Option<T>)
    ensures o.Some? <==> f.Present?
    ensures o.Some? ==> o.value == f.value
  {
    match f
    case Present(v) => Some(v)
    case _ => None
  }

  function Floors(xs: seq<real>): (r: seq<int>)
    ensures |r| == |xs|
    ensures AllInts(xs) ==> forall i :: 0 <= i < |xs| ==> r[i] as real == xs[i]
  {
    Seqs.Map((x: real) => x.Floor, xs)
  }

  function IntsOf(f: Field<seq<real>>): Field<seq<int>> {
    match f
    case Absent => Absent
    case Null => Null
    case Present(xs) => Present(Floors(xs))
  }

  /** The typed values of a payload the form or create schema accepted. */
  function CreateValuesOf(raw: Payload, schema: Schema, isUrl: string -> bool): (v: CreateValues)
    requires schema != UpdateSchema && Issues(raw, schema, isUrl) == []
    ensures NameOk(v.nombre) && v.nombre == raw.nombre.value
    ensures v.precio >= 0.0 && v.precio == raw.precio.value
    ensures v.categoria as real == raw.categoria.value
    ensures v.cantidadStock as real == raw.cantidadStock.value
    ensures v.descripcion == raw.descripcion
    ensures v.isActivo == (raw.isActivo != Present(false))
    ensures v.isOferta == (raw.isOferta == Present(true))
    ensures isUrl(v.urlImagen)
    ensures raw.urlImagen.Absent? ==> v.urlImagen == ""
    ensures raw.urlImagen.Present? ==> v.urlImagen == raw.urlImagen.value
    ensures v.sabores.Present? <==> raw.sabores.Present?
    ensures v.sabores.Present? ==>
              |v.sabores.value| == |raw.sabores.value|
              && forall i :: 0 <= i < |v.sabores.value| ==> v.sabores.value[i] as real == raw.sabores.value[i]
    ensures v.galeriaUrls == (if schema == FormSchema then Absent else raw.galeriaUrls)
  {
    assert RequiredOk(raw.cantidadStock, false, (x: real) => IsInt(x) && x >= 0.0);
    CreateValues(
      raw.nombre.value,
      raw.descripcion,
      raw.precio.value,
      raw.categoria.value.Floor,
      FieldOr(raw.isActivo, true),
      FieldOr(raw.isOferta, false),
      raw.cantidadStock.value.Floor,
      IntsOf(raw.sabores),
      FieldOr(raw.urlImagen, ""),
      if schema == FormSchema then Absent else raw.galeriaUrls)
  }

  /** The typed values of a payload the update schema accepted; nothing is defaulted. */
  function UpdateValuesOf(raw: Payload, isUrl: string -> bool): (v: UpdateValues)
    requires Issues(raw, UpdateSchema, isUrl) == []
    ensures v.id as real == raw.id.value
    ensures v.nombre == FieldToOption(raw.nombre) && v.precio == FieldToOption(raw.precio)
    ensures v.isActivo == FieldToOption(raw.isActivo) && v.isOferta == FieldToOption(raw.isOferta)
    ensures v.urlImagen == FieldToOption(raw.urlImagen)
    ensures v.categoria.Some? <==> raw.categoria.Present?
    ensures v.categoria.Some? ==> v.categoria.value as real == raw.categoria.value
    ensures v.cantidadStock.Some? <==> raw.cantidadStock.Present?
    ensures v.cantidadStock.Some? ==> v.cantidadStock.value as real == raw.cantidadStock.value
    ensures v.descripcion == raw.descripcion && v.galeriaUrls == raw.galeriaUrls
    ensures v.sabores.Absent? <==> raw.sabores.Absent?
    ensures v.sabores.Null? <==> raw.sabores.Null?
    ensures v.sabores.Present? ==>
              |v.sabores.value| == |raw.sabores.value|
              && forall i :: 0 <= i < |v.sabores.value| ==> v.sabores.value[i] as real == raw.sabores.value[i]
  {
    assert RequiredOk(raw.cantidadStock, true, (x: real) => IsInt(x) && x >= 0.0);
    UpdateValues(
      raw.id.value.Floor,
      FieldToOption(raw.nombre),
      raw.descripcion,
      FieldToOption(raw.precio),
      if raw.categoria.Present? then Some(raw.categoria.value.Floor) else None,
      FieldToOption(raw.isActivo),
      FieldToOption(raw.isOferta),
      if raw.cantidadStock.Present? then Some(raw.cantidadStock.value.Floor) else None,
      IntsOf(raw.sabores),
      FieldToOption(raw.urlImagen),
      raw.galeriaUrls)
  }

  /** The create schemas find no issue exactly when every create rule holds. */
  lemma CreateIssuesIff(raw: Payload, stripGaleria: bool, isUrl: string -> bool)
    ensures Issues(raw, if stripGaleria then FormSchema else CreateSchema, isUrl) == []
            <==> CreateRulesHold(raw, stripGaleria, isUrl)
  {
  }

  /** The update schema finds no issue exactly when every update rule holds. */
  lemma UpdateIssuesIff(raw: Payload, isUrl: string -> bool)
    ensures Issues(raw, UpdateSchema, isUrl) == [] <==> UpdateRulesHold(raw, isUrl)
  {
  }

  /** The field each broken create rule is reported under. */
  lemma CreateIssuesNamed(raw: Payload, stripGaleria: bool, isUrl: string -> bool)
    ensures var issues := Issues(raw, if stripGaleria then FormSchema else CreateSchema, isUrl);
            && (!raw.nombre.Present? || !NameOk(raw.nombre.value) ==> Nombre in issues)
            && (!raw.precio.Present? || raw.precio.value < 0.0 ==> Precio in issues)
            && (!raw.categoria.Present? || !IsInt(raw.categoria.value) ==> Column.Categoria in issues)
            && ((!raw.cantidadStock.Present? || !IsInt(raw.cantidadStock.value) || raw.cantidadStock.value < 0.0)
                  ==> CantidadStock in issues)
            && (raw.sabores.Present? && !AllInts(raw.sabores.value) ==> Sabores in issues)
            && (raw.urlImagen.Present? && !isUrl(raw.urlImagen.value) ==> UrlImagen in issues)
            && (raw.urlImagen.Absent? && !isUrl("") ==> UrlImagen in issues)
  {
  }

  /**
   * Parses a payload with the form schema (`stripGaleria`) or the create
   * schema of the API.
   */
  function ParseCreate(raw: Payload, stripGaleria: bool, isUrl: string -> bool): (r: Result<CreateValues, seq<Column>>)
    ensures r.Failure? ==> |r.error| > 0
    // accepted exactly when every rule holds
    ensures r.Success? <==> CreateRulesHold(raw, stripGaleria, isUrl)
    // the rejections the schema exists for
    ensures !raw.nombre.Present? || !NameOk(raw.nombre.value) ==> r.Failure? && Nombre in r.error
    ensures !raw.precio.Present? || raw.precio.value < 0.0 ==> r.Failure? && Precio in r.error
    ensures !raw.categoria.Present? || !IsInt(raw.categoria.value) ==> r.Failure? && Column.Categoria in r.error
    ensures (!raw.cantidadStock.Present? || !IsInt(raw.cantidadStock.value) || raw.cantidadStock.value < 0.0)
              ==> r.Failure? && CantidadStock in r.error
    ensures raw.sabores.Present? && !AllInts(raw.sabores.value) ==> r.Failure? && Sabores in r.error
    ensures raw.urlImagen.Present? && !isUrl(raw.urlImagen.value) ==> r.Failure? && UrlImagen in r.error
    ensures raw.urlImagen.Absent? && !isUrl("") ==> r.Failure? && UrlImagen in r.error
    ensures raw.isActivo.Null? || raw.isOferta.Null? || raw.urlImagen.Null? ==> r.Failure?
    ensures stripGaleria ==> r.Success? || GaleriaUrls !in r.error
    // what an accepted payload turns into
    ensures r.Success? ==>
              var v := r.value;
              NameOk(v.nombre) && v.nombre == raw.nombre.value
              && v.precio >= 0.0 && v.precio == raw.precio.value
              && v.categoria as real == raw.categoria.value
              && v.cantidadStock as real == raw.cantidadStock.value
              && v.descripcion == raw.descripcion
              && v.isActivo == (raw.isActivo != Present(false))
              && v.isOferta == (raw.isOferta == Present(true))
              && isUrl(v.urlImagen)
              && (raw.urlImagen.Absent? ==> v.urlImagen == "")
              && (raw.urlImagen.Present? ==> v.urlImagen == raw.urlImagen.value)
              && (v.sabores.Present? <==> raw.sabores.Present?)
              && (v.sabores.Present? ==>
                    |v.sabores.value| == |raw.sabores.value|
                    && forall i :: 0 <= i < |v.sabores.value| ==> v.sabores.value[i] as real == raw.sabores.value[i])
              && v.galeriaUrls == (if stripGaleria then Absent else raw.galeriaUrls)
  {
    var schema := if stripGaleria then FormSchema else CreateSchema;
    var issues := Issues(raw, schema, isUrl);
    CreateIssuesIff(raw, stripGaleria, isUrl);
    CreateIssuesNamed(raw, stripGaleria, isUrl);
    if issues == [] then Success(CreateValuesOf(raw, schema, isUrl)) else Failure(issues)
  }

  /** Parses a payload with the update schema. */
  function ParseUpdate(raw: Payload, isUrl: string -> bool): (r: Result<UpdateValues, seq<Column>>)
    ensures r.Failure? ==> |r.error| > 0
    ensures r.Success? <==> UpdateRulesHold(raw, isUrl)
    ensures !raw.id.Present? || !IsInt(raw.id.value) ==> r.Failure? && Id in r.error
    ensures raw.nombre.Null? || (raw.nombre.Present? && !NameOk(raw.nombre.value)) ==> r.Failure? && Nombre in r.error
    ensures raw.precio.Null? || (raw.precio.Present? && raw.precio.value < 0.0) ==> r.Failure? && Precio in r.error
    ensures (raw.cantidadStock.Present? && (!IsInt(raw.cantidadStock.value) || raw.cantidadStock.value < 0.0))
              ==> r.Failure? && CantidadStock in r.error
    // a field left out stays left out (no defaults); a field sent keeps its value
    ensures r.Success? ==>
              var v := r.value;
              && v.id as real == raw.id.value
              && (raw.nombre.Present? ==> v.nombre == Some(raw.nombre.value))
              && (raw.precio.Present? ==> v.precio == Some(raw.precio.value))
              && (raw.isActivo.Present? ==> v.isActivo == Some(raw.isActivo.value))
              && (raw.isOferta.Present? ==> v.isOferta == Some(raw.isOferta.value))
              && (raw.urlImagen.Present? ==> v.urlImagen == Some(raw.urlImagen.value))
              && (v.nombre.Some? <==> raw.nombre.Present?)
              && (v.precio.Some? <==> raw.precio.Present?)
              && (v.isActivo.Some? <==> raw.isActivo.Present?)
              && (v.isOferta.Some? <==> raw.isOferta.Present?)
              && (v.urlImagen.Some? <==> raw.urlImagen.Present?)
              && (v.categoria.Some? <==> raw.categoria.Present?)
              && (v.categoria.Some? ==> v.categoria.value as real == raw.categoria.value)
              && (v.cantidadStock.Some? <==> raw.cantidadStock.Present?)
              && (v.cantidadStock.Some? ==> v.cantidadStock.value as real == raw.cantidadStock.value)
              && v.descripcion == raw.descripcion
              && v.galeriaUrls == raw.galeriaUrls
              && (v.sabores.Absent? <==> raw.sabores.Absent?)
              && (v.sabores.Null? <==> raw.sabores.Null?)
              && (v.sabores.Present? ==>
                    |v.sabores.value| == |raw.sabores.value|
                    && forall i :: 0 <= i < |v.sabores.value| ==> v.sabores.value[i] as real == raw.sabores.value[i])
  {
    var issues := Issues(raw, UpdateSchema, isUrl);
    UpdateIssuesIff(raw, isUrl);
    if issues == [] then Success(UpdateValuesOf(raw, isUrl)) else Failure(issues)
  }

  /**
   * Zero is the smallest accepted price: a payload the create schema
   * accepts with some price is accepted with price 0 and rejected with
   * price -1.
   */
  lemma PriceBoundary(raw: Payload, stripGaleria: bool, isUrl: string -> bool)
    requires ParseCreate(raw, stripGaleria, isUrl).Success?
    ensures ParseCreate(raw.(precio := Present(0.0)), stripGaleria, isUrl).Success?
    ensures ParseCreate(raw.(precio := Present(-1.0)), stripGaleria, isUrl) == Failure([Precio])
  {
    var schema := if stripGaleria then FormSchema else CreateSchema;
    assert Issues(raw, schema, isUrl) == [];
    var lower := raw.(precio := Present(-1.0));
    assert Issues(lower, schema, isUrl) == [Precio];
  }

  /** Every payload the create schema accepts is accepted by the update schema once it names an integer id. */
  lemma CreateImpliesUpdate(raw: Payload, id: int, isUrl: string -> bool)
    requires ParseCreate(raw, false, isUrl).Success?
    ensures ParseUpdate(raw.(id := Present(id as real)), isUrl).Success?
  {
    assert Issues(raw, CreateSchema, isUrl) == [];
  }
}

=== FILE: products_route.dfy ===
/**
 * The admin products API (`/api/admin/productos`): list, create, update
 * and delete product rows behind the admin guard.
 *
 * Each handler is a function of the environment, the request, the auth
 * service's reply and the database's reply; its result records the
 * database call it made (if any) together with the response it sent.
 */
module ProductsRoute {
  import opened Wrappers
  import opened Types
  import opened Http
  import opened ProductSchema
  import AdminGuard

  /** The request: its `Authorization` header and its body (`None`: not a JSON object). */
  datatype Request = Request(authorization: Option<string>, body: Option<Payload>)

  /** The row `POST` inserts; nullable columns hold `None` for SQL null. */
  datatype InsertRow = InsertRow(
    nombre: string,
    descripcion: Option<string>,
    precio: real,
    categoria: int,
    isActivo: bool,
    isOferta: bool,
    cantidadStock: nat,
    sabores: Option<seq<int>>,
    urlImagen: string,
    galeriaUrls: Option<seq<string>>)

  /**
   * The columns `PATCH` writes. `Option` columns are written when `Some`;
   * `Field` columns are not written when `Absent`, set to null when
   * `Null`, and set to the value when `Present`.
   */
  datatype UpdateRow = UpdateRow(
    nombre: Option<string>,
    descripcion: Field<string>,
    precio: Option<real>,
    categoria: Option<int>,
    isActivo: Option<bool>,
    isOferta: Option<bool>,
    cantidadStock: Option<nat>,
    sabores: Field<seq<int>>,
    urlImagen: Option<string>,
    galeriaUrls: Field<seq<string>>)

  /** The database calls the handlers make. */
  datatype StoreCall =
    | SelectAllByNewest
    | Insert(row: InsertRow)
    | Update(id: int, changes: UpdateRow)
    | Delete(idValue: real)  // the body's id, passed on unvalidated

  /** `x ?? null`. */
  function OrNull<T>(f: Field<T>): (r: Option<T>)
    ensures r.Some? <==> f.Present?
    ensures r.Some? ==> r.value == f.value
  {
    if f.Present? then Some(f.value) else None
  }

  /** `xs && xs.length ? xs : null`: an empty flavour list is stored as null. */
  function NullIfEmpty(f: Field<seq<int>>): (r: Option<seq<int>>)
    ensures r.Some? <==> f.Present? && |f.value| > 0
    ensures r.Some? ==> r.value == f.value
  {
    if f.Present? && |f.value| > 0 then Some(f.value) else None
  }

  /** The row inserted for accepted create values. */
  function InsertRowOf(v: CreateValues): (row: InsertRow)
    ensures row.nombre == v.nombre && row.precio == v.precio && row.categoria == v.categoria
    ensures row.isActivo == v.isActivo && row.isOferta == v.isOferta && row.cantidadStock == v.cantidadStock
    ensures row.urlImagen == v.urlImagen
    ensures row.descripcion.Some? <==> v.descripcion.Present?
    ensures row.descripcion.Some? ==> row.descripcion.value == v.descripcion.value
    ensures row.sabores.Some? <==> v.sabores.Present? && |v.sabores.value| > 0
    ensures row.sabores.Some? ==> row.sabores.value == v.sabores.value
    ensures row.galeriaUrls.Some? <==> v.galeriaUrls.Present?
    ensures row.galeriaUrls.Some? ==> row.galeriaUrls.value == v.galeriaUrls.value
  {
    InsertRow(
      v.nombre, OrNull(v.descripcion), v.precio, v.categoria, v.isActivo, v.isOferta,
      v.cantidadStock, NullIfEmpty(v.sabores), v.urlImagen, OrNull(v.galeriaUrls))
  }

  /** Null when absent or null, the value otherwise; as a column write. */
  function WriteOrNull<T>(f: Field<T>): (w: Field<T>)
    ensures w != Absent
    ensures f.Present? <==> w.Present?
    ensures f.Present? ==> w == f
  {
    if f.Present? then f else Null
  }

  /**
   * The update written by the source: the fields sent, plus `descripcion`,
   * `sabores` and `galeria_urls`, which are written even when the payload
   * leaves them out (then as null).
   */
  function UpdateRowAsWritten(v: UpdateValues): (u: UpdateRow)
    // the spread fields pass through
    ensures u.nombre == v.nombre && u.precio == v.precio && u.categoria == v.categoria
    ensures u.isActivo == v.isActivo && u.isOferta == v.isOferta && u.cantidadStock == v.cantidadStock
    ensures u.urlImagen == v.urlImagen
    // the three nullable columns are always written: the value sent, or null
    ensures !u.descripcion.Absent? && !u.sabores.Absent? && !u.galeriaUrls.Absent?
    ensures u.descripcion.Present? <==> v.descripcion.Present?
    ensures u.descripcion.Present? ==> u.descripcion == v.descripcion
    ensures u.sabores.Present? <==> v.sabores.Present? && |v.sabores.value| > 0
    ensures u.sabores.Present? ==> u.sabores == v.sabores
    ensures u.galeriaUrls.Present? <==> v.galeriaUrls.Present?
    ensures u.galeriaUrls.Present? ==> u.galeriaUrls == v.galeriaUrls
  {
    UpdateRow(
      v.nombre, WriteOrNull(v.descripcion), v.precio, v.categoria, v.isActivo, v.isOferta,
      v.cantidadStock,
      if v.sabores.Present? && |v.sabores.value| > 0 then v.sabores else Null,
      v.urlImagen, WriteOrNull(v.galeriaUrls))
  }

  /**
   * The update the handler should write: exactly the fields sent, with an
   * empty flavour list still stored as null.
   */
  function UpdateRowPartial(v: UpdateValues): (u: UpdateRow)
    ensures u.nombre == v.nombre && u.precio == v.precio && u.categoria == v.categoria
    ensures u.isActivo == v.isActivo && u.isOferta == v.isOferta && u.cantidadStock == v.cantidadStock
    ensures u.urlImagen == v.urlImagen
    ensures u.descripcion == v.descripcion && u.galeriaUrls == v.galeriaUrls
    ensures u.sabores.Absent? <==> v.sabores.Absent?
    ensures u.sabores.Present? <==> v.sabores.Present? && |v.sabores.value| > 0
    ensures u.sabores.Present? ==> u.sabores == v.sabores
  {
    UpdateRow(
      v.nombre, v.descripcion, v.precio, v.categoria, v.isActivo, v.isOferta,
      v.cantidadStock,
      match v.sabores
      case Present(xs) => if |xs| > 0 then v.sabores else Null
      case other => other,
      v.urlImagen, v.galeriaUrls)
  }

  /**
   * The update as written and the partial update differ exactly when the
   * payload leaves out the description, the flavours or the gallery.
   */
  lemma AsWrittenAgreesIffAllSent(v: UpdateValues)
    ensures (UpdateRowAsWritten(v) == UpdateRowPartial(v)) <==>
            (!v.descripcion.Absent? && !v.sabores.Absent? && !v.galeriaUrls.Absent?)
  {
    if UpdateRowAsWritten(v) == UpdateRowPartial(v) {
      assert UpdateRowAsWritten(v).descripcion == UpdateRowPartial(v).descripcion;
      assert UpdateRowAsWritten(v).sabores == UpdateRowPartial(v).sabores;
      assert UpdateRowAsWritten(v).galeriaUrls == UpdateRowPartial(v).galeriaUrls;
    }
  }

  /** The value a nullable column holds after an update writes `w` to it. */
  function AfterWrite<T>(before: Option<T>, w: Field<T>): (after: Option<T>)
    ensures w.Absent? ==> after == before
    ensures w.Null? ==> after == None
    ensures w.Present? ==> after == Some(w.value)
  {
    match w
    case Absent => before
    case Null => None
    case Present(x) => Some(x)
  }

  /** The body the product editor of the admin page sends when saving price, stock, flags and gallery. */
  function EditorPayload(id: int, precio: real, stock: real, activo: bool, oferta: bool, galeria: seq<string>): Payload {
    Payload(
      Present(id as real), Absent, Absent, Present(precio), Absent, Present(activo), Present(oferta),
      Present(stock), Absent, Absent, Present(galeria))
  }

  /**
   * As written, a save from the product editor erases the product's
   * description and flavours, although the editor never showed them.
   */
  lemma EditorSaveErasesDescripcion(
      id: int, precio: nat, stock: nat, activo: bool, oferta: bool, galeria: seq<string>,
      isUrl: string -> bool, before: Producto)
    requires forall i :: 0 <= i < |galeria| ==> isUrl(galeria[i])
    requires before.descripcion.Some? && before.sabores.Some?
    ensures var parsed := ParseUpdate(EditorPayload(id, precio as real, stock as real, activo, oferta, galeria), isUrl);
            && parsed.Success?
            && AfterWrite(before.descripcion, UpdateRowAsWritten(parsed.value).descripcion) == None
            && AfterWrite(before.sabores, UpdateRowAsWritten(parsed.value).sabores) == None
  {
    var raw := EditorPayload(id, precio as real, stock as real, activo, oferta, galeria);
    assert Issues(raw, UpdateSchema, isUrl) == [];
  }

  /** The partial update leaves every nullable column the payload left out as it was. */
  lemma PartialUpdateKeepsOmitted(v: UpdateValues, before: Producto)
    ensures v.descripcion.Absent? ==> AfterWrite(before.descripcion, UpdateRowPartial(v).descripcion) == before.descripcion
    ensures v.sabores.Absent? ==> AfterWrite(before.sabores, UpdateRowPartial(v).sabores) == before.sabores
    ensures v.descripcion.Present? ==> AfterWrite(before.descripcion, UpdateRowPartial(v).descripcion) == Some(v.descripcion.value)
    ensures v.sabores.Present? ==>
              AfterWrite(before.sabores, UpdateRowPartial(v).sabores)
              == (if |v.sabores.value| > 0 then Some(v.sabores.value) else None)
  {
  }

  /** With the partial update, a save from the product editor keeps the description and flavours. */
  lemma EditorSaveKeepsDescripcion(
      id: int, precio: nat, stock: nat, activo: bool, oferta: bool, galeria: seq<string>,
      isUrl: string -> bool, before: Producto)
    requires forall i :: 0 <= i < |galeria| ==> isUrl(galeria[i])
    ensures var parsed := ParseUpdate(EditorPayload(id, precio as real, stock as real, activo, oferta, galeria), isUrl);
            && parsed.Success?
            && AfterWrite(before.descripcion, UpdateRowPartial(parsed.value).descripcion) == before.descripcion
            && AfterWrite(before.sabores, UpdateRowPartial(parsed.value).sabores) == before.sabores
  {
    var raw := EditorPayload(id, precio as real, stock as real, activo, oferta, galeria);
    assert Issues(raw, UpdateSchema, isUrl) == [];
  }

  /** `GET`: every product, newest first; a database error answers 500. */
  function Get(env: Env, req: Request, lookup: AdminGuard.UserLookup, reply: StoreReply<seq<Producto>>)
    : (h: Handled<StoreCall, seq<Producto>>)
    ensures var g := AdminGuard.AssertAdmin(env, req.authorization, lookup).decision;
            && (!g.Pass? ==> h == AdminGuard.Refused(g))
            && (h.call.Some? <==> g.Pass? && AdminClientError(env).None?)
            && (h.call.Some? ==> h.call.value == SelectAllByNewest)
            && (h.response.status == 200 <==> h.call.Some? && reply.Stored?)
            && (h.response.status == 200 ==> h.response.body == Data(reply.value))
            && (g.Pass? && h.response.status != 200 ==> h.response.status == 500)
  {
    var g := AdminGuard.AssertAdmin(env, req.authorization, lookup).decision;
    if !g.Pass? then AdminGuard.Refused(g)
    else match AdminClientError(env)
      case Some(e) => Handled(None, Response(500, Error(e)))
      case None =>
        match reply
        case Stored(rows) => Handled(Some(SelectAllByNewest), Response(200, Data(rows)))
        case StoreError(m) => Handled(Some(SelectAllByNewest), Response(500, Error(StoreFailed(m))))
  }

  /** `POST`: validates the body with the create schema and inserts one row; 201 on success. */
  function Post(env: Env, req: Request, lookup: AdminGuard.UserLookup, isUrl: string -> bool, reply: StoreReply<Producto>)
    : (h: Handled<StoreCall, Producto>)
    ensures var g := AdminGuard.AssertAdmin(env, req.authorization, lookup).decision;
            && (!g.Pass? ==> h == AdminGuard.Refused(g))
            && (g.Pass? ==> h.response.status in {201, 400})
            // nothing is written unless the guard passed and the schema accepted the body
            && (h.call.Some? <==>
                  g.Pass? && req.body.Some? && ParseCreate(req.body.value, false, isUrl).Success?
                  && AdminClientError(env).None?)
            && (h.call.Some? ==> h.call.value == Insert(InsertRowOf(ParseCreate(req.body.value, false, isUrl).value)))
            && (g.Pass? && req.body.Some? && ParseCreate(req.body.value, false, isUrl).Failure? ==>
                  h.response == Response(400, Error(Invalid(ParseCreate(req.body.value, false, isUrl).error))))
            && (h.response.status == 201 <==> h.call.Some? && reply.Stored?)
            && (h.response.status == 201 ==> h.response.body == Data(reply.value))
  {
    var g := AdminGuard.AssertAdmin(env, req.authorization, lookup).decision;
    if !g.Pass? then AdminGuard.Refused(g)
    else match req.body
      case None => Handled(None, Response(400, Error(InvalidJson)))
      case Some(raw) =>
        match ParseCreate(raw, false, isUrl)
        case Failure(issues) => Handled(None, Response(400, Error(Invalid(issues))))
        case Success(v) =>
          match AdminClientError(env)
          case Some(e) => Handled(None, Response(400, Error(e)))
          case None =>
            var call := Insert(InsertRowOf(v));
            match reply
            case Stored(p) => Handled(Some(call), Response(201, Data(p)))
            case StoreError(m) => Handled(Some(call), Response(400, Error(StoreFailed(m))))
  }

  /**
   * `u` writes the seven spread columns exactly as the body `raw` sent
   * them: a column left out is not written, a column sent gets its value.
   */
  predicate SpreadsSent(u: UpdateRow, raw: Payload) {
    && u.nombre == FieldToOption(raw.nombre) && u.precio == FieldToOption(raw.precio)
    && u.isActivo == FieldToOption(raw.isActivo) && u.isOferta == FieldToOption(raw.isOferta)
    && u.urlImagen == FieldToOption(raw.urlImagen)
    && (u.categoria.Some? <==> raw.categoria.Present?)
    && (u.categoria.Some? ==> u.categoria.value as real == raw.categoria.value)
    && (u.cantidadStock.Some? <==> raw.cantidadStock.Present?)
    && (u.cantidadStock.Some? ==> u.cantidadStock.value as real == raw.cantidadStock.value)
  }

  /** `u` writes flavour ids equal to the numbers of `sent`, in order. */
  predicate SaboresAsSent(u: seq<int>, sent: seq<real>) {
    |u| == |sent| && forall i :: 0 <= i < |u| ==> u[i] as real == sent[i]
  }

  /** The update as written, read against the body it was parsed from. */
  lemma AsWrittenFromBody(raw: Payload, isUrl: string -> bool)
    requires ParseUpdate(raw, isUrl).Success?
    ensures var v := ParseUpdate(raw, isUrl).value;
            var u := UpdateRowAsWritten(v);
            && v.id as real == raw.id.value
            && SpreadsSent(u, raw)
            && u.descripcion == (if raw.descripcion.Present? then raw.descripcion else Null)
            && u.galeriaUrls == (if raw.galeriaUrls.Present? then raw.galeriaUrls else Null)
            && (u.sabores.Present? <==> raw.sabores.Present? && |raw.sabores.value| > 0)
            && (u.sabores.Null? <==> !u.sabores.Present?)
            && (u.sabores.Present? ==> SaboresAsSent(u.sabores.value, raw.sabores.value))
  {
  }

  /** The partial update, read against the body it was parsed from. */
  lemma PartialFromBody(raw: Payload, isUrl: string -> bool)
    requires ParseUpdate(raw, isUrl).Success?
    ensures var v := ParseUpdate(raw, isUrl).value;
            var u := UpdateRowPartial(v);
            && v.id as real == raw.id.value
            && SpreadsSent(u, raw)
            && u.descripcion == raw.descripcion
            && u.galeriaUrls == raw.galeriaUrls
            && (u.sabores.Absent? <==> raw.sabores.Absent?)
            && (u.sabores.Present? <==> raw.sabores.Present? && |raw.sabores.value| > 0)
            && (u.sabores.Present? ==> SaboresAsSent(u.sabores.value, raw.sabores.value))
  {
  }

  /**
   * The `PATCH` flow with the update row built by `rowOf`: validate the body
   * with the update schema, then update the row with that id.
   */
  function PatchWith(
      env: Env, req: Request, lookup: AdminGuard.UserLookup, isUrl: string -> bool, reply: StoreReply<Producto>,
      rowOf: UpdateValues -> UpdateRow)
    : (h: Handled<StoreCall, Producto>)
    ensures var g := AdminGuard.AssertAdmin(env, req.authorization, lookup).decision;
            && (!g.Pass? ==> h == AdminGuard.Refused(g))
            && (g.Pass? ==> h.response.status in {200, 400})
            && (g.Pass? && req.body.Some? && ParseUpdate(req.body.value, isUrl).Failure? ==>
                  h.response == Response(400, Error(Invalid(ParseUpdate(req.body.value, isUrl).error))))
            && (h.call.Some? <==>
                  g.Pass? && req.body.Some? && ParseUpdate(req.body.value, isUrl).Success?
                  && AdminClientError(env).None?)
            && (h.call.Some? ==>
                  var v := ParseUpdate(req.body.value, isUrl).value;
                  h.call.value == Update(v.id, rowOf(v)))
            && (h.response.status == 200 <==> h.call.Some? && reply.Stored?)
            && (h.response.status == 200 ==> h.response.body == Data(reply.value))
  {
    var g := AdminGuard.AssertAdmin(env, req.authorization, lookup).decision;
    if !g.Pass? then AdminGuard.Refused(g)
    else match req.body
      case None => Handled(None, Response(400, Error(InvalidJson)))
      case Some(raw) =>
        match ParseUpdate(raw, isUrl)
        case Failure(issues) => Handled(None, Response(400, Error(Invalid(issues))))
        case Success(v) =>
          match AdminClientError(env)
          case Some(e) => Handled(None, Response(400, Error(e)))
          case None =>
            var call := Update(v.id, rowOf(v));
            match reply
            case Stored(p) => Handled(Some(call), Response(200, Data(p)))
            case StoreError(m) => Handled(Some(call), Response(400, Error(StoreFailed(m))))
  }

  /**
   * `PATCH` as written: the row named by the payload's id gets the fields
   * sent, and its description, flavours and gallery are overwritten (with
   * null when the payload leaves them out).
   */
  function Patch(env: Env, req: Request, lookup: AdminGuard.UserLookup, isUrl: string -> bool, reply: StoreReply<Producto>)
    : (h: Handled<StoreCall, Producto>)
    ensures var g := AdminGuard.AssertAdmin(env, req.authorization, lookup).decision;
            && (!g.Pass? ==> h == AdminGuard.Refused(g))
            && (g.Pass? ==> h.response.status in {200, 400})
            && (g.Pass? && req.body.Some? && ParseUpdate(req.body.value, isUrl).Failure? ==>
                  h.response == Response(400, Error(Invalid(ParseUpdate(req.body.value, isUrl).error))))
            && (h.call.Some? <==>
                  g.Pass? && req.body.Some? && ParseUpdate(req.body.value, isUrl).Success?
                  && AdminClientError(env).None?)
            && (h.call.Some? ==>
                  var v := ParseUpdate(req.body.value, isUrl).value;
                  && h.call.value == Update(v.id, UpdateRowAsWritten(v))
                  && !h.call.value.changes.descripcion.Absent?
                  && !h.call.value.changes.sabores.Absent?
                  && !h.call.value.changes.galeriaUrls.Absent?)
            && (h.response.status == 200 <==> h.call.Some? && reply.Stored?)
            && (h.response.status == 200 ==> h.response.body == Data(reply.value))
    // in terms of the body: the id and the spread columns as sent, and the
    // three nullable columns as sent or null
    ensures h.call.Some? ==> h.call.value.id as real == req.body.value.id.value
    ensures h.call.Some? ==> SpreadsSent(h.call.value.changes, req.body.value)
    ensures h.call.Some? ==>
              var raw, u := req.body.value, h.call.value.changes;
              && u.descripcion == (if raw.descripcion.Present? then raw.descripcion else Null)
              && u.galeriaUrls == (if raw.galeriaUrls.Present? then raw.galeriaUrls else Null)
              && (u.sabores.Present? <==> raw.sabores.Present? && |raw.sabores.value| > 0)
              && (u.sabores.Null? <==> !u.sabores.Present?)
              && (u.sabores.Present? ==> SaboresAsSent(u.sabores.value, raw.sabores.value))
  {
    var h := PatchWith(env, req, lookup, isUrl, reply, UpdateRowAsWritten);
    if h.call.Some? then AsWrittenFromBody(req.body.value, isUrl); h else h
  }

  /** `PATCH` as intended: the row named by the payload's id gets exactly the fields sent. */
  function PatchIntended(env: Env, req: Request, lookup: AdminGuard.UserLookup, isUrl: string -> bool, reply: StoreReply<Producto>)
    : (h: Handled<StoreCall, Producto>)
    ensures var g := AdminGuard.AssertAdmin(env, req.authorization, lookup).decision;
            && (!g.Pass? ==> h == AdminGuard.Refused(g))
            && (g.Pass? ==> h.response.status in {200, 400})
            && (h.call.Some? <==>
                  g.Pass? && req.body.Some? && ParseUpdate(req.body.value, isUrl).Success?
                  && AdminClientError(env).None?)
            && (h.call.Some? ==>
                  var v := ParseUpdate(req.body.value, isUrl).value;
                  h.call.value == Update(v.id, UpdateRowPartial(v)))
            && (h.response.status == 200 <==> h.call.Some? && reply.Stored?)
            && (h.response.status == 200 ==> h.response.body == Data(reply.value))
    // in terms of the body: the id and every column exactly as sent
    ensures h.call.Some? ==> h.call.value.id as real == req.body.value.id.value
    ensures h.call.Some? ==> SpreadsSent(h.call.value.changes, req.body.value)
    ensures h.call.Some? ==>
              var raw, u := req.body.value, h.call.value.changes;
              && u.descripcion == raw.descripcion
              && u.galeriaUrls == raw.galeriaUrls
              && (u.sabores.Absent? <==> raw.sabores.Absent?)
              && (u.sabores.Present? <==> raw.sabores.Present? && |raw.sabores.value| > 0)
              && (u.sabores.Present? ==> SaboresAsSent(u.sabores.value, raw.sabores.value))
  {
    var h := PatchWith(env, req, lookup, isUrl, reply, UpdateRowPartial);
    if h.call.Some? then PartialFromBody(req.body.value, isUrl); h else h
  }

  /**
   * The two `PATCH` flows answer alike and make the same call, except for
   * the update row, which agrees exactly when the payload sends the
   * description, the flavours and the gallery.
   */
  lemma PatchDiffersOnlyInRow(env: Env, req: Request, lookup: AdminGuard.UserLookup, isUrl: string -> bool, reply: StoreReply<Producto>)
    ensures Patch(env, req, lookup, isUrl, reply).response == PatchIntended(env, req, lookup, isUrl, reply).response
    ensures Patch(env, req, lookup, isUrl, reply).call.Some? == PatchIntended(env, req, lookup, isUrl, reply).call.Some?
    ensures Patch(env, req, lookup, isUrl, reply).call.Some? ==>
              var v := ParseUpdate(req.body.value, isUrl).value;
              ((Patch(env, req, lookup, isUrl, reply) == PatchIntended(env, req, lookup, isUrl, reply)) <==>
               (!v.descripcion.Absent? && !v.sabores.Absent? && !v.galeriaUrls.Absent?))
  {
    var h1 := Patch(env, req, lookup, isUrl, reply);
    var h2 := PatchIntended(env, req, lookup, isUrl, reply);
    if h1.call.Some? {
      var v := ParseUpdate(req.body.value, isUrl).value;
      AsWrittenAgreesIffAllSent(v);
      if h1 == h2 {
        assert h1.call.value.changes == h2.call.value.changes;
      }
    }
  }

  /** `!id` for a JSON number field: left out, null, or zero. */
  predicate MissingId(id: Field<real>) {
    !id.Present? || id.value == 0.0
  }

  /** `DELETE`: removes the row whose id the body names; a missing or zero id answers 400. */
  function Delete(env: Env, req: Request, lookup: AdminGuard.UserLookup, reply: StoreReply<()>)
    : (h: Handled<StoreCall, bool>)
    ensures var g := AdminGuard.AssertAdmin(env, req.authorization, lookup).decision;
            && (!g.Pass? ==> h == AdminGuard.Refused(g))
            && (g.Pass? ==> h.response.status in {200, 400})
            && (g.Pass? && req.body.Some? && MissingId(req.body.value.id) ==>
                  h == Handled(None, Response(400, Error(IdRequired))))
            && (h.call.Some? <==>
                  g.Pass? && req.body.Some? && !MissingId(req.body.value.id) && AdminClientError(env).None?)
            && (h.call.Some? ==> h.call.value == StoreCall.Delete(req.body.value.id.value))
            && (h.response.status == 200 <==> h.call.Some? && reply.Stored?)
            && (h.response.status == 200 ==> h.response.body == Data(true))
  {
    var g := AdminGuard.AssertAdmin(env, req.authorization, lookup).decision;
    if !g.Pass? then AdminGuard.Refused(g)
    else match req.body
      case None => Handled(None, Response(400, Error(InvalidJson)))
      case Some(raw) =>
        if MissingId(raw.id) then Handled(None, Response(400, Error(IdRequired)))
        else match AdminClientError(env)
          case Some(e) => Handled(None, Response(400, Error(e)))
          case None =>
            var call := StoreCall.Delete(raw.id.value);
            match reply
            case Stored(_) => Handled(Some(call), Response(200, Data(true)))
            case StoreError(m) => Handled(Some(call), Response(400, Error(StoreFailed(m))))
  }
}

=== FILE: seqs.dfy ===
/** Generic sequence rules shared by the cart, the catalogue filters and the admin pages. */
module Seqs {

  /** `sub` is obtained from `s` by deleting elements, the rest keeping their order. */
  ghost predicate IsSubseq<T>(sub: seq<T>, s: seq<T>)
    decreases |s|
  {
    |sub| == 0
    || (|s| > 0
        && ((sub[0] == s[0] && IsSubseq(sub[1..], s[1..])) || IsSubseq(sub, s[1..])))
  }

  /** `Array.prototype.filter`: the elements of `s` satisfying `f`, in order. */
  function Filter<T>(f: T -> bool, s: seq<T>): (r: seq<T>)
    ensures |r| <= |s|
    ensures forall i :: 0 <= i < |r| ==> f(r[i])
    decreases |s|
  {
    if |s| == 0 then []
    else if f(s[0]) then [s[0]] + Filter(f, s[1..])
    else Filter(f, s[1..])
  }

  /** Whatever holds of every element of the input holds of every element kept. */
  lemma {:induction false} FilterKeepsProperty<T>(f: T -> bool, p: T -> bool, s: seq<T>)
    requires forall i :: 0 <= i < |s| ==> p(s[i])
    ensures forall i :: 0 <= i < |Filter(f, s)| ==> p(Filter(f, s)[i])
    decreases |s|
  {
    if |s| > 0 {
      FilterKeepsProperty(f, p, s[1..]);
    }
  }

  /** The filtered sequence is a subsequence of the input. */
  lemma {:induction false} FilterIsSubseq<T>(f: T -> bool, s: seq<T>)
    ensures IsSubseq(Filter(f, s), s)
    decreases |s|
  {
    if |s| > 0 {
      FilterIsSubseq(f, s[1..]);
      var r := Filter(f, s);
      if f(s[0]) {
        assert r[0] == s[0] && r[1..] == Filter(f, s[1..]);
      }
    }
  }

  /** Every element satisfying `f` keeps its multiplicity. */
  lemma {:induction false} FilterKeepsCount<T>(f: T -> bool, s: seq<T>, x: T)
    requires f(x)
    ensures multiset(Filter(f, s))[x] == multiset(s)[x]
    decreases |s|
  {
    if |s| > 0 {
      FilterKeepsCount(f, s[1..], x);
      assert s == [s[0]] + s[1..];
    }
  }

  /** Nothing is dropped exactly when every element satisfies `f`. */
  lemma {:induction false} FilterLength<T>(f: T -> bool, s: seq<T>)
    ensures |Filter(f, s)| == |s| <==> forall i :: 0 <= i < |s| ==> f(s[i])
    ensures |Filter(f, s)| == 0 <==> forall i :: 0 <= i < |s| ==> !f(s[i])
    decreases |s|
  {
    if |s| > 0 {
      FilterLength(f, s[1..]);
      assert forall i :: 1 <= i < |s| ==> s[i] == s[1..][i - 1];
      if forall i :: 0 <= i < |s| ==> f(s[i]) {
        assert forall i :: 0 <= i < |s| - 1 ==> f(s[1..][i]);
      }
      if forall i :: 0 <= i < |s| ==> !f(s[i]) {
        assert forall i :: 0 <= i < |s| - 1 ==> !f(s[1..][i]);
      }
    }
  }

  /** Filtering with a predicate that every element satisfies changes nothing. */
  lemma {:induction false} FilterKeepsAll<T>(f: T -> bool, s: seq<T>)
    requires forall i :: 0 <= i < |s| ==> f(s[i])
    ensures Filter(f, s) == s
    decreases |s|
  {
    if |s| > 0 {
      FilterKeepsAll(f, s[1..]);
      assert s == [s[0]] + s[1..];
    }
  }

  /** Filtering distributes over concatenation. */
  lemma {:induction false} FilterConcat<T>(f: T -> bool, a: seq<T>, b: seq<T>)
    ensures Filter(f, a + b) == Filter(f, a) + Filter(f, b)
    decreases |a|
  {
    if |a| > 0 {
      assert (a + b)[1..] == a[1..] + b;
      FilterConcat(f, a[1..], b);
    } else {
      assert a + b == b;
    }
  }

  /** Filtering `a + [x] + b` drops exactly the one rejected element between them. */
  lemma FilterSkipsOne<T>(f: T -> bool, a: seq<T>, x: T, b: seq<T>)
    requires forall i :: 0 <= i < |a| ==> f(a[i])
    requires !f(x)
    requires forall i :: 0 <= i < |b| ==> f(b[i])
    ensures Filter(f, a + ([x] + b)) == a + b
  {
    FilterKeepsAll(f, a);
    FilterKeepsAll(f, b);
    assert ([x] + b)[1..] == b;
    FilterConcat(f, a, [x] + b);
  }

  /** Filtering out exactly one position of `s` deletes that position and nothing else. */
  lemma FilterDropsOne<T>(f: T -> bool, s: seq<T>, k: int)
    requires 0 <= k < |s|
    requires !f(s[k])
    requires forall i :: 0 <= i < |s| && i != k ==> f(s[i])
    ensures Filter(f, s) == s[..k] + s[k + 1..]
  {
    var a, b := s[..k], s[k + 1..];
    assert s == a + ([s[k]] + b);
    forall i | 0 <= i < |a|
      ensures f(a[i])
    {
      assert a[i] == s[i];
    }
    forall i | 0 <= i < |b|
      ensures f(b[i])
    {
      assert b[i] == s[k + 1 + i];
    }
    FilterSkipsOne(f, a, s[k], b);
  }

  /** Filters with predicates that agree on every element give the same result. */
  lemma {:induction false} FilterExt<T>(f: T -> bool, g: T -> bool, s: seq<T>)
    requires forall i :: 0 <= i < |s| ==> f(s[i]) == g(s[i])
    ensures Filter(f, s) == Filter(g, s)
    decreases |s|
  {
    if |s| > 0 {
      assert forall i :: 0 <= i < |s| - 1 ==> s[1..][i] == s[i + 1];
      FilterExt(f, g, s[1..]);
    }
  }

  /** Filtering by `f` and then by `g` is filtering once by their conjunction `h`. */
  lemma {:induction false} FilterCompose<T>(f: T -> bool, g: T -> bool, h: T -> bool, s: seq<T>)
    requires forall i :: 0 <= i < |s| ==> h(s[i]) == (f(s[i]) && g(s[i]))
    ensures Filter(g, Filter(f, s)) == Filter(h, s)
    decreases |s|
  {
    if |s| > 0 {
      assert forall i :: 0 <= i < |s| - 1 ==> s[1..][i] == s[i + 1];
      FilterCompose(f, g, h, s[1..]);
      if f(s[0]) {
        var t := Filter(f, s);
        assert t == [s[0]] + Filter(f, s[1..]);
        assert t[1..] == Filter(f, s[1..]);
      }
    }
  }

  /** `Array.prototype.map`. */
  function Map<A, B>(f: A -> B, s: seq<A>): (r: seq<B>)
    ensures |r| == |s|
    ensures forall i :: 0 <= i < |s| ==> r[i] == f(s[i])
  {
    seq(|s|, i requires 0 <= i < |s| => f(s[i]))
  }

  /** The test `y => y !== x`. */
  function Other<T(==)>(x: T): T -> bool {
    y => y != x
  }

  /** `xs.filter(y => y !== x)`: every occurrence of `x` removed, the rest kept in order. */
  function RemoveAll<T(==)>(s: seq<T>, x: T): (r: seq<T>)
    ensures x !in r
    ensures forall i :: 0 <= i < |s| && s[i] != x ==> multiset(r)[s[i]] == multiset(s)[s[i]]
    ensures IsSubseq(r, s)
    ensures x !in s ==> r == s
  {
    var f := Other(x);
    var r := Filter(f, s);
    FilterIsSubseq(f, s);
    assert forall i :: 0 <= i < |r| ==> r[i] != x;
    assert forall i :: 0 <= i < |s| && s[i] != x ==> multiset(r)[s[i]] == multiset(s)[s[i]] by {
      forall i | 0 <= i < |s| && s[i] != x {
        FilterKeepsCount(f, s, s[i]);
      }
    }
    if x !in s then FilterKeepsAll(f, s); r else r
  }

  /**
   * A checkbox list of ids: checking appends the id (duplicates are not
   * prevented), unchecking removes every occurrence of it.
   */
  function Toggle<T(==)>(ids: seq<T>, id: T, checked: bool): (r: seq<T>)
    ensures checked ==> r == ids + [id]
    ensures !checked ==> id !in r && IsSubseq(r, ids)
    ensures !checked ==> forall i :: 0 <= i < |ids| && ids[i] != id ==> multiset(r)[ids[i]] == multiset(ids)[ids[i]]
    ensures (id in r) == checked
  {
    if checked then ids + [id] else RemoveAll(ids, id)
  }

  /** Removing `x` from a sequence that ends in `x` removes it from the rest as well. */
  lemma RemoveAllAppended<T>(s: seq<T>, x: T)
    ensures RemoveAll(s + [x], x) == RemoveAll(s, x)
  {
    FilterConcat(Other(x), s, [x]);
    assert Filter(Other(x), [x]) == [];
  }

  /** Checking and then unchecking an id that was not ticked restores the list. */
  lemma ToggleOnOff<T>(ids: seq<T>, id: T)
    ensures Toggle(Toggle(ids, id, true), id, false) == RemoveAll(ids, id)
    ensures id !in ids ==> Toggle(Toggle(ids, id, true), id, false) == ids
  {
    RemoveAllAppended(ids, id);
  }
}

=== FILE: sorting.dfy ===
/**
 * A stable sort by an integer key: the order `Array.prototype.sort`
 * produces (it is stable) for a comparator of the form `key(a) - key(b)`.
 * A descending comparator `key(b) - key(a)` is the ascending sort by `-key`.
 */
module Sorting {

  ghost predicate SortedBy<T>(key: T -> int, s: seq<T>) {
    forall i, j :: 0 <= i < j < |s| ==> key(s[i]) <= key(s[j])
  }

  /** Inserts `x` in front of the first element whose key is not smaller. */
  function Insert<T>(key: T -> int, x: T, s: seq<T>): (r: seq<T>)
    requires SortedBy(key, s)
    ensures SortedBy(key, r)
    ensures multiset(r) == multiset(s) + multiset{x}
    ensures |r| == |s| + 1
    decreases |s|
  {
    if |s| == 0 then [x]
    else if key(x) <= key(s[0]) then
      SortedCons(key, x, s);
      [x] + s
    else
      var rest := Insert(key, x, s[1..]);
      InsertedAbove(key, x, s, rest);
      SortedCons(key, s[0], rest);
      assert s == [s[0]] + s[1..];
      [s[0]] + rest
  }

  /** A sorted sequence stays sorted with an element in front whose key bounds the first one's. */
  lemma SortedCons<T>(key: T -> int, h: T, s: seq<T>)
    requires SortedBy(key, s)
    requires |s| == 0 || key(h) <= key(s[0])
    ensures SortedBy(key, [h] + s)
  {
    var r := [h] + s;
    forall i, j | 0 <= i < j < |r|
      ensures key(r[i]) <= key(r[j])
    {
      if i > 0 {
        assert r[i] == s[i - 1] && r[j] == s[j - 1];
      } else {
        assert r[j] == s[j - 1];
      }
    }
  }

  /** Inserting a larger element into the tail of a sorted sequence keeps the head's key a lower bound. */
  lemma InsertedAbove<T>(key: T -> int, x: T, s: seq<T>, rest: seq<T>)
    requires SortedBy(key, s) && |s| > 0 && key(s[0]) < key(x)
    requires multiset(rest) == multiset(s[1..]) + multiset{x}
    ensures |rest| == 0 || key(s[0]) <= key(rest[0])
  {
    if |rest| > 0 {
      assert rest[0] in multiset(rest);
      if rest[0] != x {
        assert rest[0] in multiset(s[1..]);
        var k :| 0 <= k < |s[1..]| && s[1..][k] == rest[0];
        assert s[k + 1] == rest[0];
      }
    }
  }

  /** Insertion sort: sorted by `key` and a permutation of the input. */
  function SortByKey<T>(key: T -> int, s: seq<T>): (r: seq<T>)
    ensures SortedBy(key, r)
    ensures multiset(r) == multiset(s)
    ensures |r| == |s|
    decreases |s|
  {
    if |s| == 0 then []
    else
      assert s == [s[0]] + s[1..];
      Insert(key, s[0], SortByKey(key, s[1..]))
  }
}

=== FILE: storage.dfy ===
/**
 * Naming rules of the image storage used by the upload routes and the
 * image uploader: which bucket an upload goes to, how a file name is made
 * safe for an object path, and where an uploaded object is published.
 */
module Storage {
  import opened Wrappers
  import Strings
  import opened Http

  const DefaultBucket: string := "products"

  /** The first non-empty of the requested bucket, SUPABASE_STORAGE_BUCKET, NEXT_PUBLIC_SUPABASE_BUCKET and "products". */
  function ResolveBucket(requested: Option<string>, env: Env): (b: string)
    ensures b != ""
    ensures requested.Some? && requested.value != "" ==> b == requested.value
    ensures (requested.None? || requested.value == "") && env.storageBucket != "" ==> b == env.storageBucket
    ensures ((requested.None? || requested.value == "") && env.storageBucket == "" && env.publicBucket != "")
              ==> b == env.publicBucket
    ensures b in {requested.GetOr(""), env.storageBucket, env.publicBucket, DefaultBucket}
  {
    if requested.GetOr("") != "" then requested.value
    else if env.storageBucket != "" then env.storageBucket
    else if env.publicBucket != "" then env.publicBucket
    else DefaultBucket
  }

  /** The characters `[a-zA-Z0-9._-]` a file name keeps. */
  predicate SafeChar(c: char) {
    ('a' <= c <= 'z') || ('A' <= c <= 'Z') || Strings.IsDigit(c) || c == '.' || c == '_' || c == '-'
  }

  /**
   * The replacement of one character: kept when safe, otherwise one `_`
   * per UTF-16 code unit (the pattern has no `u` flag, so each half of a
   * surrogate pair is replaced on its own).
   */
  function SafeUnits(c: char): (r: string)
    ensures |r| == Strings.Utf16Length([c])
    ensures forall i :: 0 <= i < |r| ==> SafeChar(r[i])
    ensures SafeChar(c) ==> r == [c]
    ensures !SafeChar(c) ==> forall i :: 0 <= i < |r| ==> r[i] == '_'
  {
    assert [c][..0] == [];
    if SafeChar(c) then [c] else if Strings.IsAstral(c) then "__" else "_"
  }

  /** A file name with every other UTF-16 code unit replaced by `_`. */
  function SafeName(name: string): (r: string)
    ensures |r| == Strings.Utf16Length(name)
    ensures forall i :: 0 <= i < |r| ==> SafeChar(r[i])
    decreases |name|
  {
    if |name| == 0 then ""
    else
      var r := SafeName(name[..|name| - 1]) + SafeUnits(name[|name| - 1]);
      assert forall i :: 0 <= i < |r| ==> SafeChar(r[i]) by {
        var a, b := SafeName(name[..|name| - 1]), SafeUnits(name[|name| - 1]);
        forall i | 0 <= i < |r|
          ensures SafeChar(r[i])
        {
          if i < |a| { assert r[i] == a[i]; } else { assert r[i] == b[i - |a|]; }
        }
      }
      r
  }

  /**
   * For a name without astral characters the replacement is position by
   * position: safe characters kept, every other one turned into `_`.
   */
  lemma {:induction false} SafeNameBmp(name: string)
    requires forall i :: 0 <= i < |name| ==> !Strings.IsAstral(name[i])
    ensures |SafeName(name)| == |name|
    ensures forall i :: 0 <= i < |name| ==>
              (SafeChar(name[i]) ==> SafeName(name)[i] == name[i]) && (!SafeChar(name[i]) ==> SafeName(name)[i] == '_')
    decreases |name|
  {
    Strings.Utf16LengthBmp(name);
    if |name| > 0 {
      var n := |name|;
      SafeNameBmp(name[..n - 1]);
      var a, b := SafeName(name[..n - 1]), SafeUnits(name[n - 1]);
      assert |b| == 1;
      forall i | 0 <= i < n
        ensures (SafeChar(name[i]) ==> SafeName(name)[i] == name[i]) && (!SafeChar(name[i]) ==> SafeName(name)[i] == '_')
      {
        if i < n - 1 {
          assert SafeName(name)[i] == a[i] && name[..n - 1][i] == name[i];
        } else {
          assert SafeName(name)[i] == b[0];
        }
      }
    }
  }

  /** A safe name is left as it is. */
  lemma {:induction false} SafeNameKeepsSafe(name: string)
    requires forall i :: 0 <= i < |name| ==> SafeChar(name[i])
    ensures SafeName(name) == name
    decreases |name|
  {
    if |name| > 0 {
      SafeNameKeepsSafe(name[..|name| - 1]);
      assert name == name[..|name| - 1] + [name[|name| - 1]];
    }
  }

  /** Making a name safe twice changes nothing more. */
  lemma SafeNameIdempotent(name: string)
    ensures SafeName(SafeName(name)) == SafeName(name)
  {
    SafeNameKeepsSafe(SafeName(name));
  }

  /** An emoji, two UTF-16 code units, becomes two underscores. */
  lemma SafeNameAstral()
    ensures SafeName("\U{1F600}.png") == "__.png"
  {
    var name := "\U{1F600}.png";
    assert name[..4] == "\U{1F600}.pn" && name[..3] == "\U{1F600}.p";
    assert name[..2] == "\U{1F600}." && name[..1] == "\U{1F600}" && name[..1][..0] == "";
    assert SafeName(name[..1]) == "__";
    assert SafeName(name[..2]) == "__.";
    assert name[..3][..2] == name[..2] && name[..4][..3] == name[..3] && name[..2][..1] == name[..1];
    assert SafeName(name[..3]) == "__.p";
    assert name[..|name| - 1] == name[..4];
    assert SafeName(name[..4]) == "__.pn";
  }

  /** The number of leading decimal digits of `s`. */
  function DigitRun(s: string): (n: nat)
    ensures n <= |s|
    ensures forall i :: 0 <= i < n ==> Strings.IsDigit(s[i])
    ensures n < |s| ==> !Strings.IsDigit(s[n])
    decreases |s|
  {
    if |s| > 0 && Strings.IsDigit(s[0]) then 1 + DigitRun(s[1..]) else 0
  }

  /**
   * `p` is the object path of an upload of `name` made at `now` under
   * `prefix`: the prefix, a run of digits reading `now`, `_`, and the safe
   * form of the name.
   */
  predicate NamesUpload(p: string, prefix: string, now: nat, name: string) {
    && |prefix| <= |p| && p[..|prefix|] == prefix
    && var rest := p[|prefix|..];
       var n := DigitRun(rest);
       && 0 < n < |rest| && rest[n] == '_'
       && Strings.ParseNat(rest[..n]) == now
       && rest[n + 1..] == SafeName(name)
  }

  lemma {:induction false} DigitRunOf(digits: string, rest: string)
    requires forall i :: 0 <= i < |digits| ==> Strings.IsDigit(digits[i])
    ensures DigitRun(digits + "_" + rest) == |digits|
    decreases |digits|
  {
    if |digits| > 0 {
      assert (digits + "_" + rest)[1..] == digits[1..] + "_" + rest;
      DigitRunOf(digits[1..], rest);
    }
  }

  /** `<prefix><timestamp>_<safe name>`: the object path of an upload made at `now` (milliseconds). */
  function TimestampedPath(prefix: string, now: nat, name: string): (p: string)
    ensures |p| == |prefix| + |Strings.NatToString(now)| + 1 + Strings.Utf16Length(name)
    ensures NamesUpload(p, prefix, now, name)
  {
    var digits := Strings.NatToString(now);
    var p := prefix + digits + "_" + SafeName(name);
    assert p[|prefix|..] == digits + "_" + SafeName(name);
    DigitRunOf(digits, SafeName(name));
    assert p[|prefix|..][..|digits|] == digits;
    Strings.ParseNatToString(now);
    p
  }

  /** Timestamped paths with the same prefix made at different instants differ. */
  lemma TimestampedPathsDiffer(prefix: string, t1: nat, n1: string, t2: nat, n2: string)
    requires TimestampedPath(prefix, t1, n1) == TimestampedPath(prefix, t2, n2)
    ensures t1 == t2 && SafeName(n1) == SafeName(n2)
  {
  }

  /** The path segment between the project URL and the bucket of a public object URL. */
  const PublicSegment: string := "/storage/v1/object/public/"

  /** The public URL of object `path` in `bucket` of the Supabase project at `base`. */
  function PublicObjectUrl(base: string, bucket: string, path: string): (u: string)
    ensures |u| == |base| + |PublicSegment| + |bucket| + 1 + |path|
    ensures u[..|base|] == base
    ensures u[|base|..|base| + |PublicSegment|] == PublicSegment
    ensures var k := |base| + |PublicSegment|;
            u[k..k + |bucket|] == bucket && u[k + |bucket|] == '/' && u[k + |bucket| + 1..] == path
  {
    base + PublicSegment + bucket + "/" + path
  }

  /**
   * Under one project URL, a public URL names its bucket and path: two
   * buckets without `/` give equal URLs only for equal buckets and paths.
   */
  lemma PublicObjectUrlInjective(base: string, b1: string, p1: string, b2: string, p2: string)
    requires '/' !in b1 && '/' !in b2
    requires PublicObjectUrl(base, b1, p1) == PublicObjectUrl(base, b2, p2)
    ensures b1 == b2 && p1 == p2
  {
  }
}

=== FILE: strings.dfy ===
/**
 * The string operations the storefront relies on: character classes,
 * `trim`, ASCII `toLowerCase`, `startsWith`, `includes`, `split`, and
 * the decimal rendering of a timestamp, and JavaScript's `length`.
 *
 * A Dafny `string` is a sequence of Unicode scalar values, while JavaScript
 * strings are sequences of UTF-16 code units: a character outside the
 * Basic Multilingual Plane is one element here and two units there.
 */
module Strings {
  import Seqs

  predicate IsDigit(c: char) {
    '0' <= c <= '9'
  }

  /** The characters `String.prototype.trim` strips: ECMAScript WhiteSpace and LineTerminator. */
  predicate IsWhitespace(c: char) {
    || c == ' ' || c == '\t' || c == '\n' || c == '\r' || c == '\U{000B}' || c == '\U{000C}'
    || c == '\U{00A0}' || c == '\U{1680}' || ('\U{2000}' <= c <= '\U{200A}')
    || c == '\U{2028}' || c == '\U{2029}' || c == '\U{202F}' || c == '\U{205F}'
    || c == '\U{3000}' || c == '\U{FEFF}'
  }

  predicate IsBlank(s: string) {
    forall i :: 0 <= i < |s| ==> IsWhitespace(s[i])
  }

  function TrimStart(s: string): (r: string)
    ensures |r| <= |s| && r == s[|s| - |r|..]
    ensures IsBlank(s[..|s| - |r|])
    ensures r == "" || !IsWhitespace(r[0])
    decreases |s|
  {
    if |s| > 0 && IsWhitespace(s[0]) then
      var r := TrimStart(s[1..]);
      assert s[..|s| - |r|] == [s[0]] + s[1..][..|s| - 1 - |r|];
      r
    else s
  }

  function TrimEnd(s: string): (r: string)
    ensures |r| <= |s| && r == s[..|r|]
    ensures IsBlank(s[|r|..])
    ensures r == "" || !IsWhitespace(r[|r| - 1])
    decreases |s|
  {
    if |s| > 0 && IsWhitespace(s[|s| - 1]) then
      var r := TrimEnd(s[..|s| - 1]);
      assert s[|r|..] == s[..|s| - 1][|r|..] + [s[|s| - 1]];
      r
    else s
  }

  /** `r` is `s` with a blank prefix of length `k` and a blank suffix removed. */
  ghost predicate TrimmedAt(s: string, r: string, k: int) {
    && 0 <= k && k + |r| <= |s|
    && r == s[k..k + |r|]
    && IsBlank(s[..k])
    && IsBlank(s[k + |r|..])
  }

  lemma TrimFacts(s: string, l: string, r: string)
    requires |l| <= |s| && l == s[|s| - |l|..] && IsBlank(s[..|s| - |l|])
    requires |r| <= |l| && r == l[..|r|] && IsBlank(l[|r|..])
    requires r == "" || !IsWhitespace(r[0])
    ensures TrimmedAt(s, r, |s| - |l|)
    ensures r == "" <==> IsBlank(s)
  {
    var k := |s| - |l|;
    assert s[k..] == l;
    assert s[k..k + |r|] == l[..|r|];
    assert s[k + |r|..] == l[|r|..];
    if r == "" {
      assert s == s[..k] + l;
      assert l == l[|r|..];
    } else {
      assert r[0] == s[k];
    }
  }

  /** `String.prototype.trim`. */
  function Trim(s: string): (r: string)
    ensures exists k :: TrimmedAt(s, r, k)
    ensures r == "" || (!IsWhitespace(r[0]) && !IsWhitespace(r[|r| - 1]))
    ensures r == "" <==> IsBlank(s)
  {
    var l := TrimStart(s);
    var r := TrimEnd(l);
    TrimFacts(s, l, r);
    r
  }

  /** A string with no whitespace at either end is its own trim. */
  lemma TrimClean(s: string)
    requires s == "" || (!IsWhitespace(s[0]) && !IsWhitespace(s[|s| - 1]))
    ensures Trim(s) == s
  {
    var r := Trim(s);
    var k :| TrimmedAt(s, r, k);
  }

  /** Trimming removes characters, so it introduces none. */
  lemma TrimKeepsOut(s: string, c: char)
    requires c !in s
    ensures c !in Trim(s)
  {
    var r := Trim(s);
    var k :| TrimmedAt(s, r, k);
    assert r == s[k..k + |r|];
  }

  function LowerChar(c: char): (d: char)
    ensures 'A' <= c <= 'Z' ==> d as int == c as int + 32
    ensures !('A' <= c <= 'Z') ==> d == c
  {
    if 'A' <= c <= 'Z' then (c as int + 32) as char else c
  }

  predicate IsLower(s: string) {
    forall i :: 0 <= i < |s| ==> !('A' <= s[i] <= 'Z')
  }

  /** `String.prototype.toLowerCase`, restricted to the ASCII letters. */
  function ToLower(s: string): (r: string)
    ensures |r| == |s| && IsLower(r)
    ensures IsLower(s) ==> r == s
  {
    Seqs.Map(LowerChar, s)
  }

  /** Lowercasing introduces no character other than a lowercase letter. */
  lemma ToLowerKeepsOut(s: string, c: char)
    requires c !in s && !('a' <= c <= 'z')
    ensures c !in ToLower(s)
  {
    var r := ToLower(s);
    forall i | 0 <= i < |r|
      ensures r[i] != c
    {
      assert r[i] == LowerChar(s[i]);
    }
  }

  predicate StartsWith(s: string, prefix: string) {
    |prefix| <= |s| && s[..|prefix|] == prefix
  }

  /** `sub` occurs in `s` starting at position `i`. */
  predicate OccursAt(s: string, sub: string, i: int) {
    0 <= i && i + |sub| <= |s| && s[i..i + |sub|] == sub
  }

  lemma OccursShift(s: string, sub: string)
    requires |s| > 0
    ensures forall i :: 0 <= i ==> (OccursAt(s[1..], sub, i) <==> OccursAt(s, sub, i + 1))
  {
    forall i | 0 <= i
      ensures OccursAt(s[1..], sub, i) <==> OccursAt(s, sub, i + 1)
    {
      if 0 <= i && i + |sub| <= |s| - 1 {
        assert s[1..][i..i + |sub|] == s[i + 1..i + 1 + |sub|];
      }
    }
  }

  /** `String.prototype.includes`: a substring search. */
  function Contains(s: string, sub: string): (r: bool)
    ensures r <==> exists i :: OccursAt(s, sub, i)
    decreases |s|
  {
    if StartsWith(s, sub) then
      assert OccursAt(s, sub, 0);
      true
    else if |s| == 0 then
      false
    else
      OccursShift(s, sub);
      var r := Contains(s[1..], sub);
      assert r ==> exists i :: OccursAt(s, sub, i) by {
        if r {
          var i :| OccursAt(s[1..], sub, i);
          assert OccursAt(s, sub, i + 1);
        }
      }
      assert (exists i :: OccursAt(s, sub, i)) ==> r by {
        if exists i :: OccursAt(s, sub, i) {
          var i :| OccursAt(s, sub, i);
          assert i != 0;
          assert OccursAt(s[1..], sub, i - 1);
        }
      }
      r
  }

  /** Concatenates `parts` with `sep` between consecutive parts (`Array.prototype.join`). */
  function Join(parts: seq<string>, sep: char): string
    decreases |parts|
  {
    if |parts| == 0 then ""
    else if |parts| == 1 then parts[0]
    else parts[0] + [sep] + Join(parts[1..], sep)
  }

  /** `String.prototype.split` on one character: the empty string splits into `[""]`. */
  function Split(s: string, sep: char): (r: seq<string>)
    ensures |r| >= 1
    ensures forall i :: 0 <= i < |r| ==> sep !in r[i]
    ensures Join(r, sep) == s
    decreases |s|
  {
    if |s| == 0 then [""]
    else
      var rest := Split(s[1..], sep);
      if s[0] == sep then
        var r := [""] + rest;
        assert r[1..] == rest;
        assert s == [sep] + s[1..];
        r
      else
        var r := [[s[0]] + rest[0]] + rest[1..];
        assert |rest| > 1 ==> r[1..] == rest[1..];
        assert s == [s[0]] + s[1..];
        r
  }

  /** Splitting a separator-free prefix onto the first piece. */
  lemma {:induction false} SplitPrefix(p: string, t: string, sep: char)
    requires sep !in p
    ensures Split(p + t, sep) == [p + Split(t, sep)[0]] + Split(t, sep)[1..]
    decreases |p|
  {
    if |p| > 0 {
      assert (p + t)[1..] == p[1..] + t;
      SplitPrefix(p[1..], t, sep);
      var st := Split(t, sep);
      var rest := Split(p[1..] + t, sep);
      assert (p + t)[0] == p[0] && p[0] != sep;
      assert rest[0] == p[1..] + st[0];
      assert rest[1..] == st[1..];
      assert [p[0]] + (p[1..] + st[0]) == p + st[0];
    } else {
      assert p == "";
      assert p + t == t;
      var st := Split(t, sep);
      assert p + st[0] == st[0];
      assert [st[0]] + st[1..] == st;
    }
  }

  /** Joining separator-free parts and splitting again gives the parts back. */
  lemma {:induction false} SplitJoin(parts: seq<string>, sep: char)
    requires |parts| >= 1
    requires forall i :: 0 <= i < |parts| ==> sep !in parts[i]
    ensures Split(Join(parts, sep), sep) == parts
    decreases |parts|
  {
    if |parts| == 1 {
      SplitPrefix(parts[0], "", sep);
      assert parts[0] + "" == parts[0];
      assert Split("", sep) == [""];
      assert [parts[0] + ""] + [""][1..] == [parts[0]];
      assert Join(parts, sep) == parts[0];
      assert [parts[0]] == parts;
    } else {
      var tail := Join(parts[1..], sep);
      SplitJoin(parts[1..], sep);
      assert parts[0] + [sep] + tail == parts[0] + ([sep] + tail);
      SplitPrefix(parts[0], [sep] + tail, sep);
      assert ([sep] + tail)[1..] == tail;
      var S := Split([sep] + tail, sep);
      assert S == [""] + Split(tail, sep);
      assert S[0] == "" && S[1..] == parts[1..];
      assert parts[0] + S[0] == parts[0];
      assert parts == [parts[0]] + parts[1..];
    }
  }

  function DigitChar(d: nat): (c: char)
    requires d < 10
    ensures IsDigit(c) && c as int - '0' as int == d
  {
    ('0' as int + d) as char
  }

  /** The decimal rendering of a natural number (`${n}` in a template literal). */
  function NatToString(n: nat): (r: string)
    ensures |r| >= 1
    ensures forall i :: 0 <= i < |r| ==> IsDigit(r[i])
    ensures r[0] == '0' ==> n == 0
    decreases n
  {
    if n < 10 then [DigitChar(n)]
    else NatToString(n / 10) + [DigitChar(n % 10)]
  }

  /** Reads back a string of decimal digits. */
  function ParseNat(s: string): nat
    requires forall i :: 0 <= i < |s| ==> IsDigit(s[i])
    decreases |s|
  {
    if |s| == 0 then 0
    else
      assert IsDigit(s[|s| - 1]);
      10 * ParseNat(s[..|s| - 1]) + (s[|s| - 1] as int - '0' as int)
  }

  /** The decimal rendering loses nothing. */
  lemma {:induction false} ParseNatToString(n: nat)
    ensures ParseNat(NatToString(n)) == n
    decreases n
  {
    if n >= 10 {
      var r := NatToString(n);
      assert r[..|r| - 1] == NatToString(n / 10);
      ParseNatToString(n / 10);
    }
  }

  /** A character outside the Basic Multilingual Plane, written in UTF-16 as a surrogate pair. */
  predicate IsAstral(c: char) {
    c as int > 0xFFFF
  }

  /** JavaScript's `length`: the number of UTF-16 code units. */
  function Utf16Length(s: string): (n: nat)
    ensures |s| <= n <= 2 * |s|
    decreases |s|
  {
    if |s| == 0 then 0 else Utf16Length(s[..|s| - 1]) + (if IsAstral(s[|s| - 1]) then 2 else 1)
  }

  /** Code units add up over concatenation. */
  lemma {:induction false} Utf16LengthConcat(a: string, b: string)
    ensures Utf16Length(a + b) == Utf16Length(a) + Utf16Length(b)
    decreases |b|
  {
    if |b| > 0 {
      assert (a + b)[..|a + b| - 1] == a + b[..|b| - 1];
      Utf16LengthConcat(a, b[..|b| - 1]);
    } else {
      assert a + b == a;
    }
  }

  /** Without astral characters, code units and characters coincide. */
  lemma {:induction false} Utf16LengthBmp(s: string)
    requires forall i :: 0 <= i < |s| ==> !IsAstral(s[i])
    ensures Utf16Length(s) == |s|
    decreases |s|
  {
    if |s| > 0 {
      Utf16LengthBmp(s[..|s| - 1]);
    }
  }
}

=== FILE: types.dfy ===
/**
 * The records of the storefront: the `productos`, `categorias` and
 * `sabores` rows, a product joined with its category and flavours, and a
 * cart line item. Prices are non-negative integers (guaraníes).
 */
module Types {
  import opened Wrappers

  /** A JSON field: left out (`undefined`), explicitly `null`, or carrying a value. */
  datatype Field<+T> = Absent | Null | Present(value: T)

  datatype Categoria = Categoria(id: int, descripcion: string, isActivo: bool, createdAt: string)

  datatype Sabor = Sabor(id: int, descripcion: string)

  /** A `productos` row; `sabores` holds flavour ids and may be null. */
  datatype Producto = Producto(
    id: int,
    nombre: string,
    descripcion: Option<string>,
    precio: nat,
    categoria: int,
    isActivo: bool,
    isOferta: bool,
    cantidadStock: int,
    sabores: Option<seq<int>>,
    urlImagen: string,
    createdAt: string)

  /**
   * A row joined with its category (absent when the join found none) and
   * the flavour rows its `sabores` ids refer to.
   */
  datatype ProductoConDetalles = ProductoConDetalles(
    row: Producto,
    categoriaInfo: Option<Categoria>,
    saboresInfo: seq<Sabor>)

  /** A cart line: a snapshot of the product taken when it was added, a quantity, an optional flavour. */
  datatype CartItem = CartItem(producto: ProductoConDetalles, quantity: int, saborSeleccionado: Option<Sabor>)
}

=== FILE: upload_route.dfy ===
/**
 * The admin upload API (`/api/admin/upload`): stores one file from a
 * multipart form in the image bucket, overwriting any object at the same
 * path, and answers with where it went.
 *
 * The storage service is not called here: its reply to the upload is
 * handed in, and `getPublicUrl` (which only builds a URL) is a parameter.
 */
module UploadRoute {
  import opened Wrappers
  import Strings
  import opened Http
  import opened Storage
  import AdminGuard

  datatype FormFile = FormFile(name: string, mimeType: string)

  /** The form's `file`, `path` and `bucket` entries; empty strings count as absent. */
  datatype UploadForm = UploadForm(file: Option<FormFile>, path: Option<string>, bucket: Option<string>)

  /** The storage call: object `path` in `bucket`, with a content type, overwriting. */
  datatype UploadCall = UploadCall(bucket: string, path: string, contentType: string, upsert: bool)

  /** The success body. */
  datatype Uploaded = Uploaded(bucket: string, path: string, publicUrl: string)

  const UploadsPrefix: string := "uploads/"
  const FallbackContentType: string := "application/octet-stream"

  /** The path sent with the form, or `uploads/<now>_<safe file name>`. */
  function UploadPath(requested: Option<string>, now: nat, file: FormFile): (p: string)
    ensures requested.Some? && requested.value != "" ==> p == requested.value
    ensures (requested.None? || requested.value == "") ==> p == TimestampedPath(UploadsPrefix, now, file.name)
    ensures p != ""
  {
    if requested.GetOr("") != "" then requested.value else TimestampedPath(UploadsPrefix, now, file.name)
  }

  function ContentType(file: FormFile): (t: string)
    ensures t != ""
    ensures file.mimeType != "" ==> t == file.mimeType
    ensures file.mimeType == "" ==> t == FallbackContentType
  {
    if file.mimeType != "" then file.mimeType else FallbackContentType
  }

  /** `POST`; `form` is `None` when the body is not multipart form data. */
  function Post(
      env: Env, authorization: Option<string>, lookup: AdminGuard.UserLookup, form: Option<UploadForm>,
      now: nat, publicUrlOf: (string, string) -> string, reply: StoreReply<()>)
    : (h: Handled<UploadCall, Uploaded>)
    ensures var g := AdminGuard.AssertAdmin(env, authorization, lookup).decision;
            && (!g.Pass? ==> h == AdminGuard.Refused(g))
            && (g.Pass? ==> h.response.status in {200, 400})
            && (g.Pass? && form.None? ==> h == Handled(None, Response(400, Error(InvalidForm))))
            && (g.Pass? && form.Some? && form.value.file.None? ==> h == Handled(None, Response(400, Error(FileRequired))))
            // storage is written only after the guard, with a file, and then with upsert
            && (h.call.Some? <==>
                  g.Pass? && form.Some? && form.value.file.Some? && AdminClientError(env).None?)
            && (h.call.Some? ==>
                  var c := h.call.value;
                  && c.upsert
                  && c.bucket == ResolveBucket(form.value.bucket, env)
                  && c.path == UploadPath(form.value.path, now, form.value.file.value)
                  && c.contentType == ContentType(form.value.file.value))
            // the answer names the object that was written
            && (h.response.status == 200 <==> h.call.Some? && reply.Stored?)
            && (h.response.status == 200 ==>
                  h.response.body == Data(Uploaded(h.call.value.bucket, h.call.value.path,
                                                   publicUrlOf(h.call.value.bucket, h.call.value.path))))
  {
    var g := AdminGuard.AssertAdmin(env, authorization, lookup).decision;
    if !g.Pass? then AdminGuard.Refused(g)
    else match form
      case None => Handled(None, Response(400, Error(InvalidForm)))
      case Some(f) =>
        match f.file
        case None => Handled(None, Response(400, Error(FileRequired)))
        case Some(file) =>
          match AdminClientError(env)
          case Some(e) => Handled(None, Response(400, Error(e)))
          case None =>
            var bucket := ResolveBucket(f.bucket, env);
            var path := UploadPath(f.path, now, file);
            var call := UploadCall(bucket, path, ContentType(file), true);
            match reply
            case Stored(_) => Handled(Some(call), Response(200, Data(Uploaded(bucket, path, publicUrlOf(bucket, path)))))
            case StoreError(m) => Handled(Some(call), Response(400, Error(StoreFailed(m))))
  }
}

=== FILE: upload_url_route.dfy ===
/**
 * The admin signed-upload API (`/api/admin/upload-url`): asks storage for
 * a signed URL through which the browser can upload one object directly,
 * and answers with it, the bucket, and the object's public URL.
 *
 * The storage service's reply is handed in. The source's fallback of
 * listing the buckets when none is configured is never taken, because
 * bucket resolution always ends at "products" (`Storage.ResolveBucket`
 * never returns the empty string).
 */
module UploadUrlRoute {
  import opened Wrappers
  import Strings
  import opened Http
  import opened Storage
  import AdminGuard
  import Types

  /** The JSON body's `path` and `bucket`. */
  datatype UrlRequest = UrlRequest(path: Types.Field<string>, bucket: Types.Field<string>)

  /** The storage call: a signed upload URL for `path` in `bucket`, overwriting. */
  datatype SignCall = SignCall(bucket: string, path: string, upsert: bool)

  /** What storage answers: the signed URL and its token. */
  datatype SignedUpload = SignedUpload(signedUrl: string, token: string)

  /** The success body: the signed upload, the bucket, and the public URL when the project URL is known. */
  datatype SignedUploadInfo = SignedUploadInfo(signed: SignedUpload, bucket: string, path: string, publicUrl: Option<string>)

  function FieldText(f: Types.Field<string>): (r: Option<string>)
    ensures r.Some? <==> f.Present?
  {
    if f.Present? then Some(f.value) else None
  }

  /** `POST`; `body` is `None` when the body is not a JSON object. */
  function Post(
      env: Env, authorization: Option<string>, lookup: AdminGuard.UserLookup, body: Option<UrlRequest>,
      reply: StoreReply<SignedUpload>)
    : (h: Handled<SignCall, SignedUploadInfo>)
    ensures var g := AdminGuard.AssertAdmin(env, authorization, lookup).decision;
            && (!g.Pass? ==> h == AdminGuard.Refused(g))
            && (g.Pass? ==> h.response.status in {200, 400})
            && (g.Pass? && body.Some? && AdminClientError(env).None? && FieldText(body.value.path).GetOr("") == "" ==>
                  h == Handled(None, Response(400, Error(PathRequired))))
            && (h.call.Some? <==>
                  g.Pass? && body.Some? && AdminClientError(env).None? && FieldText(body.value.path).GetOr("") != "")
            && (h.call.Some? ==>
                  h.call.value == SignCall(ResolveBucket(FieldText(body.value.bucket), env), body.value.path.value, true))
            && (h.response.status == 200 <==> h.call.Some? && reply.Stored?)
            // past the guard the project URL is set, so the public URL is always given
            && (h.response.status == 200 ==>
                  var c := h.call.value;
                  h.response.body == Data(SignedUploadInfo(reply.value, c.bucket, c.path,
                                                           Some(PublicObjectUrl(env.supabaseUrl, c.bucket, c.path)))))
  {
    var g := AdminGuard.AssertAdmin(env, authorization, lookup).decision;
    if !g.Pass? then AdminGuard.Refused(g)
    else match body
      case None => Handled(None, Response(400, Error(InvalidJson)))
      case Some(b) =>
        match AdminClientError(env)
        case Some(e) => Handled(None, Response(400, Error(e)))
        case None =>
          var bucket := ResolveBucket(FieldText(b.bucket), env);
          var path := FieldText(b.path).GetOr("");
          if path == "" then Handled(None, Response(400, Error(PathRequired)))
          else
            var call := SignCall(bucket, path, true);
            var publicUrl := if env.supabaseUrl != "" then Some(PublicObjectUrl(env.supabaseUrl, bucket, path)) else None;
            match reply
            case Stored(signed) => Handled(Some(call), Response(200, Data(SignedUploadInfo(signed, bucket, path, publicUrl))))
            case StoreError(m) => Handled(Some(call), Response(400, Error(StoreFailed(m))))
  }
}

=== FILE: wrappers.dfy ===
/**
 * Optional values (a TypeScript `T | undefined`) and results that carry
 * either a value or the reason it could not be produced.
 */
module Wrappers {

  datatype Option<+T> = None | Some(value: T) {

    /** The wrapped value, or `default` when there is none (TypeScript's `??`). */
    function GetOr(default: T): T {
      match this
      case Some(v) => v
      case None => default
    }
  }

  datatype Result<+T, +E> = Success(value: T) | Failure(error: E)
}
